=== FILE: README.md ===
# Signal Equalizer — a Dafny model of its index and bookkeeping logic

Signal Equalizer is a browser application with three servers behind it:

- **Browser application.** It loads an audio signal and a project document, which lists the equalizer modes and their frequency bands.
- **Viewers.** It shows the signal in three viewers: a waveform viewer (`SignalViewer`), a spectrum viewer (`FourierController`) and a spectrogram viewer (`SpectogramController`).
- **Band editing.** The equalizer side panel (`EqualizerPanel`) lets the user edit the gain of each band. The client can also encode samples as a WAV file (`samplesToWav`).
- **Servers.** Two C++ servers (`Cppserver.cpp`, `server.cpp`) and a Python server (`ServerPy.py`) compute spectra, apply the band gains in the frequency domain and compute spectrograms. The Python server also stores WAV output and mixes separated sources by slider gains.

This project models the logic around the signal processing. The numerics themselves are not modelled. What is covered:

- **Viewer windowing.** The zoom/offset state machine of each viewer, the visible index window, the stride of the spectrum plot, and the per-pixel min/max envelope of the waveform.
- **Band-list editing.** The panel's band list: removing a band, writing a band's value, resetting to the loaded document, and creating the output viewers once and then updating them.
- **WAV encoder.** The 44-byte RIFF WAVE header and the little-endian int16 samples, written into a byte array. Every field is shown to decode to the value written.
- **Server bookkeeping.** This covers:
  - the power-of-two padding and the frequency axis;
  - which bins each band scales, including the conjugate mirror bin;
  - STFT frame counting (the C++ version keeps partial frames, the Python version does not);
  - the transpose;
  - int16 quantisation and the saved URL;
  - how the AI endpoints pair slider entries with separated sources.

How the model is shaped:

- **Imperative code.** Code that changes state step by step is imperative Dafny: classes whose methods update their fields, array loops and `while` loops.
- **Specification functions.** Each method is proved against a specification function, and lemmas state what the source promises about that function.
- **Opaque transforms.** The FFT, the inverse FFT, the Hann window and the magnitude `|c|` are parameters. A spectral coefficient is a `Complex` value that a real gain scales.

Modules:

| module | file | models |
|---|---|---|
| `Common` | common.dfy | Option, Complex, GainBand, ceiling/truncation helpers |
| `Viewport` | viewport.dfy | zoom/pan arithmetic shared by the three viewers |
| `Waveform` | waveform.dfy | `SignalViewer` |
| `Spectrum` | spectrum.dfy | `FourierController` |
| `SpectrogramView` | spectrogram_view.dfy | `SpectogramController` |
| `Equalizer` | equalizer_panel.dfy | `EqualizerPanel` over the application state |
| `Wav` | wav.dfy | `samplesToWav` |
| `FftServer` | fft_server.dfy | `Cppserver.cpp` and `server.cpp` (one model for both) |
| `ServerPy` | server_py.dfy | `ServerPy.py` |

## Model

| member | source | states |
|---|---|---|
| Common.Ceil | Client/scripts/controllers/FourierController.js:140 | `Math.ceil`: the result is the least integer at or above `x` |
| Common.Trunc | Client/scripts/utils/samplesToWav.js:39 | Conversion to int16 truncates toward zero: from below for non-negative `x`, from above for negative `x`, always within 1 of `x` |
| Common.CeilDiv | Server/Cppserver.cpp:70 | The number of hop starts below `a` is the least `q` with `q*b >= a` |
| Viewport.MaxOffset | Client/scripts/controllers/SignalViewer.js:69 | `max(0, 1 - 1/zoom)` lies in `[0, 1)`. It is 0 up to zoom 1, and above that exactly one window of width `1/zoom` fits after it |
| Viewport.Clamped | Client/scripts/controllers/SignalViewer.js:68-75 | `clampOffset` puts the offset in `[0, maxOffset]`. It keeps an offset already in range, so a second clamp changes nothing, and it maps values below and above the range to its two ends |
| Viewport.ZoomedInCapped | Client/scripts/controllers/SignalViewer.js:143-148 | From zoom ≥ 1, the waveform zoom-in stays in `[1, 2000]`, never decreases below the cap, and multiplies by 1.5 whenever the cap is not hit |
| Viewport.ZoomedOut | Client/scripts/controllers/SignalViewer.js:150-155 | Zoom-out never goes below 1 or above the old zoom. It divides by 1.5 whenever the floor of 1 is not hit |
| Viewport.VisibleCount | Client/scripts/controllers/FourierController.js:135 | `floor(total/zoom)` is the count `c ≤ total` with `c*zoom ≤ total < (c+1)*zoom`. At zoom 1 it is `total` |
| Viewport.Window | Client/scripts/controllers/FourierController.js:134-137 | For `zoom ≥ 1` and `offset ∈ [0,1]`: `0 ≤ start ≤ end ≤ total` and `end - start = floor(total/zoom)`. The window is the whole axis at zoom 1 and starts at 0 at offset 0 |
| Viewport.Stride | Client/scripts/controllers/FourierController.js:139-140 | The step is 0 exactly for an empty window. It is the least step that keeps the window within 2000 points |
| Viewport.TrackPercent | Client/scripts/controllers/EqualizerPanel.js:193-200 | The filled percentage is within `[0, 100]` for an in-range value: 0 at `min` and 100 at `max` |
| Viewport.TrackPercentMonotone | Client/scripts/controllers/EqualizerPanel.js:197 | A larger slider value never fills less of the track |
| Waveform.SeqMinMaxBounds | Client/scripts/controllers/SignalViewer.js:211-221 | The running min/max fold bounds every element from below and above, and both bounds are elements |
| Waveform.TimeAxis | Client/scripts/controllers/SignalViewer.js:15 | One entry per sample with `time[i] * sampleRate = i`, strictly increasing |
| Waveform.SamplesPerPixel | Client/scripts/controllers/SignalViewer.js:194-197 | `samplesPerPixel ≥ 1`, and it is the floor of `len / (800·zoom)` whenever that floor is at least 1 |
| Waveform.StartSample | Client/scripts/controllers/SignalViewer.js:198 | `floor(offset·len) ≤ len`, and it is below `len` when `offset < 1` and the signal is not empty |
| Waveform.Reach | Client/scripts/controllers/SignalViewer.js:207-209 | The first column whose first sample index is at or past the end: every earlier column starts inside the signal |
| Waveform.ReachBelow | Client/scripts/controllers/SignalViewer.js:208-209 | A column left of Reach starts at an index inside the samples, so the render loop does not `break` there |
| Waveform.ReachAbove | Client/scripts/controllers/SignalViewer.js:208-209 | A column at or right of Reach starts at or past the end, so the loop breaks there |
| Waveform.Column | Client/scripts/controllers/SignalViewer.js:211-221 | A pixel's bucket reads only indices in `[a, min(a+spp, len))`. Every sample there lies in `[lo, hi]`, and `lo` and `hi` are samples of the bucket |
| Waveform.EnvelopeSplit | Client/scripts/controllers/SignalViewer.js:236-239 | The played stroke `[0, cp)` followed by the unplayed stroke `[cp, w)` draws exactly the columns of one stroke over `[0, w)`: together they partition the canvas columns |
| Waveform.ColumnMinMax | Client/scripts/controllers/SignalViewer.js:211-221 | The inner min/max loop yields the bucket of Column |
| Waveform.DrawSignal | Client/scripts/controllers/SignalViewer.js:204-233 | `drawSignal(startX, endX)` emits the buckets of the columns from `startX` up to the first of `endX`, the canvas width and Reach, in order |
| Waveform.SignalViewer.AudioOf | Client/scripts/controllers/SignalViewer.js:16 | There is a playable resource exactly when the source is given and non-empty |
| Waveform.SignalViewer.constructor | Client/scripts/controllers/SignalViewer.js:2-25 | It stores the samples and rate, builds the time axis and the resource, and starts at zoom 1, offset 0, time 0, not playing |
| Waveform.SignalViewer.OnAudioTimeUpdate | Client/scripts/controllers/SignalViewer.js:64-67 | The playhead takes the resource's reported position |
| Waveform.SignalViewer.ClampOffset | Client/scripts/controllers/SignalViewer.js:68-75 | It sets the offset to Clamped and keeps the viewer invariant. An offset already in range is unchanged |
| Waveform.SignalViewer.Pan | Client/scripts/controllers/SignalViewer.js:102-105 | The pan handler stores the slider value as the offset, unclamped |
| Waveform.SignalViewer.TogglePlayPause | Client/scripts/controllers/SignalViewer.js:108-117 | It flips `isPlaying` when there is audio and does nothing otherwise |
| Waveform.SignalViewer.Stop | Client/scripts/controllers/SignalViewer.js:119-127 | With audio it rewinds to time 0 and stops playing. Without audio nothing changes |
| Waveform.SignalViewer.Reset | Client/scripts/controllers/SignalViewer.js:129-134 | It does `stop`'s effect, then zoom 1 and offset 0 |
| Waveform.SignalViewer.ZoomIn | Client/scripts/controllers/SignalViewer.js:143-148 | The new zoom is ZoomedInCapped of the old, within `[1, 2000]`. The offset is re-clamped into `[0, max(0, 1 - 1/zoom)]` |
| Waveform.SignalViewer.ZoomOut | Client/scripts/controllers/SignalViewer.js:150-155 | The new zoom is ZoomedOut of the old, never below 1. The offset is re-clamped into `[0, max(0, 1 - 1/zoom)]` |
| Waveform.SignalViewer.UpdateData | Client/scripts/controllers/SignalViewer.js:164-183 | It replaces the samples and sets time 0. It uses the given time axis or rebuilds `time[i]·rate = i`. A non-empty source replaces the resource. Zoom and offset are untouched |
| Waveform.SignalViewer.Render | Client/scripts/controllers/SignalViewer.js:185-239 | Nothing is drawn for an empty signal. Otherwise it produces `samplesPerPixel ≥ 1`, `startSample` and the playhead column, and the strokes split at the playhead column: the played stroke is the envelope of columns `[0, currentPixel)` and the unplayed one that of `[max(currentPixel, 0), 800)`, together exactly the envelope of the canvas |
| Waveform.StopTwice | Client/scripts/controllers/SignalViewer.js:119-127 | `stop` is idempotent: after the second call the playhead and play flag are those the first call left, which are time 0 and not playing with audio, and the old values without. Only those two fields may change |
| Spectrum.FourierController.constructor | Client/scripts/controllers/FourierController.js:2-42 | It stores both arrays and starts at zoom 1 and offset 0 |
| Spectrum.FourierController.ClampOffset | Client/scripts/controllers/FourierController.js:120-128 | The offset becomes Clamped. An offset already in range is unchanged |
| Spectrum.FourierController.ZoomIn | Client/scripts/controllers/FourierController.js:94-98 | The zoom is multiplied by 1.5 with no ceiling (so it strictly grows), and the offset is re-clamped |
| Spectrum.FourierController.ZoomOut | Client/scripts/controllers/FourierController.js:99-103 | The zoom is floored at 1 and never grows, and the offset is re-clamped |
| Spectrum.FourierController.Pan | Client/scripts/controllers/FourierController.js:104-108 | The slider value becomes the offset, unclamped, and the zoom is kept |
| Spectrum.FourierController.Reset | Client/scripts/controllers/FourierController.js:111-118 | Zoom 1 and offset 0 |
| Spectrum.FourierController.UpdateData | Client/scripts/controllers/FourierController.js:201-214 | Both arrays are replaced, and zoom 1 and offset 0 are restored |
| Spectrum.FourierController.GetVisibleData | Client/scripts/controllers/FourierController.js:130-150 | Two empty arrays when either input is empty. Otherwise equal lengths of at most 2000, and the k-th pair is `(frequencies[start + k·step], magnitudes[start + k·step])`. The indices are strictly increasing and lie in `[start, end)`, the list stops at the first index at or past `end`, and it is empty exactly when the window is |
| Spectrum.FourierController.Render | Client/scripts/controllers/FourierController.js:152-157 | The plot is purged exactly when an array is empty or the window has no point. Otherwise there is one trace of 1 to 2000 points, whose k-th point is `(frequencies[start + k·step], magnitudes[start + k·step])` for the window `[start, end)` and its stride, stopping at the first index at or past `end` |
| Spectrum.StridedCount | Client/scripts/controllers/FourierController.js:139-147 | With the Stride step, no more than 2000 indices of the window are emitted |
| SpectrogramView.JsSlice | Client/scripts/controllers/SpectogramController.js:148 | `slice(a, b)` returns at most `b - a` elements, each `s[a + k]`, and it is exactly `s[a..b]` when `b` is within the array |
| SpectrogramView.SpectogramController.constructor | Client/scripts/controllers/SpectogramController.js:2-18 | It stores the three arrays and starts at zoom 1 and offset 0 |
| SpectrogramView.SpectogramController.GetVisibleData | Client/scripts/controllers/SpectogramController.js:139-157 | Empty x, y and z for empty magnitudes. The lookup fails exactly when a frequency has no row. Otherwise x is the time window of `magnitudes[0]` (at most `floor(numTimes/zoom)` frames) and y is the whole frequency axis. z has one row per frequency, and row f is `magnitudes[f]` sliced to the window |
| SpectrogramView.SpectogramController.Render | Client/scripts/controllers/SpectogramController.js:159-164 | It throws exactly when the lookup fails. It draws only when x, y and z are all non-empty, and what it draws is exactly the visible data. It skips only for an empty grid, an empty axis or an empty window |
| SpectrogramView.SpectogramController.ClampOffset | Client/scripts/controllers/SpectogramController.js:113-121 | The offset becomes Clamped. An offset already in range is unchanged |
| SpectrogramView.SpectogramController.ZoomIn | Client/scripts/controllers/SpectogramController.js:87-91 | The zoom is multiplied by 1.5 with no ceiling, and the offset is re-clamped |
| SpectrogramView.SpectogramController.ZoomOut | Client/scripts/controllers/SpectogramController.js:92-96 | The zoom is floored at 1, and the offset is re-clamped |
| SpectrogramView.SpectogramController.Pan | Client/scripts/controllers/SpectogramController.js:97-101 | The slider value becomes the offset, unclamped |
| SpectrogramView.SpectogramController.Reset | Client/scripts/controllers/SpectogramController.js:104-111 | Zoom 1 and offset 0 |
| SpectrogramView.SpectogramController.UpdateData | Client/scripts/controllers/SpectogramController.js:186-191 | The three arrays are replaced. Zoom and offset are kept, unlike in the spectrum viewer |
| SpectrogramView.HeatmapRectangular | Client/scripts/controllers/SpectogramController.js:139-157 | With rows of the common length, every heatmap row has one entry per visible time, `floor(numTimes/zoom)` of them |
| Equalizer.ActiveBands | Client/scripts/controllers/EqualizerPanel.js:117-118 | The bands of the mode, or none when the mode or its `sliders` key is missing |
| Equalizer.OutputPath | Client/scripts/controllers/EqualizerPanel.js:81 | There is a path exactly when the mode exists and has an `output_signal` |
| Equalizer.PaneOf | Client/scripts/controllers/EqualizerPanel.js:115-124 | The "No bands defined" placeholder exactly for an empty band list. Otherwise one row per band |
| Equalizer.RemoveAt | Client/scripts/controllers/EqualizerPanel.js:236 | `splice(i, 1)` with `i < n` drops element `i` and keeps the rest in order. An index past the end removes nothing |
| Equalizer.RemoveAtMultiset | Client/scripts/controllers/EqualizerPanel.js:236 | The removed band is the only one lost |
| Equalizer.WithValue | Client/scripts/controllers/EqualizerPanel.js:180 | Only the value of band `i` changes. Its name, range and every other band are kept |
| Equalizer.WithBands | Client/scripts/controllers/EqualizerPanel.js:178-181 | Only the edited mode's band list changes. Other modes, the mode's output path and the input path are kept |
| Equalizer.EqualizerPanel.constructor | Client/scripts/controllers/EqualizerPanel.js:16-78 | Both documents are the loaded one and the mode is `generic`. The input viewers show the input signal, the output viewers are built for the mode's output, and the sliders are drawn |
| Equalizer.EqualizerPanel.RenderSliders | Client/scripts/controllers/EqualizerPanel.js:115-188 | The pane is the placeholder exactly when the current mode has no bands. Otherwise it holds the band rows |
| Equalizer.EqualizerPanel.RemoveBand | Client/scripts/controllers/EqualizerPanel.js:232-238 | No change when the mode has no `sliders`. Otherwise the band is spliced out of that mode only and the pane is redrawn. The original document and the mode are untouched |
| Equalizer.EqualizerPanel.SetBandValue | Client/scripts/controllers/EqualizerPanel.js:174-182 | A slider value in `[0, 2]` is written into band `i` of the current mode only if that band exists. Nothing else changes, and its track percent is in `[0, 100]` |
| Equalizer.EqualizerPanel.Reset | Client/scripts/controllers/EqualizerPanel.js:240-243 | The rendered document becomes the original one, which is unchanged, and the sliders are redrawn |
| Equalizer.EqualizerPanel.LoadPrecomputedOutputAsWritten | Client/scripts/controllers/EqualizerPanel.js:80-110 | As written: it succeeds exactly when no output waveform viewer exists, building it with the output's sample rate and the mode's output path as its resource, at zoom 1, offset 0, time 0, not playing, with the rebuilt time axis. The spectrum viewer then shows the new output at zoom 1 and offset 0. Otherwise it throws with both output viewers unchanged |
| Equalizer.EqualizerPanel.LoadPrecomputedOutput | Client/scripts/controllers/EqualizerPanel.js:80-110 | Each output viewer is built when absent and otherwise updated in place (same instance). Afterwards both show the new output, and the spectrum viewer is back at zoom 1 and offset 0. A fresh waveform viewer takes the output's sample rate and the mode's output path as its resource; an existing one keeps its rate and takes that path when it is non-empty. A fresh waveform viewer starts at zoom 1, offset 0, not playing; an existing one keeps its zoom, offset and play flag. Either way the playhead is at 0 and `time[i]·sampleRate = i` for every new sample |
| Equalizer.EqualizerPanel.SetMode | Client/scripts/controllers/EqualizerPanel.js:205-230 | The mode is set and the input viewers reset (zoom 1, offset 0, stopped when there is audio) with their data kept. On success the output viewers, the same instances when they existed, show the new output with the spectrum at zoom 1 and offset 0, the waveform viewer's resource is the new mode's output path (kept when that path is absent or empty), its time axis is rebuilt with the playhead at 0, an existing waveform viewer keeps its zoom, offset and play flag while a new one starts at zoom 1, offset 0, not playing, and the sliders are redrawn. On failure the new mode stays and the pane and both output viewers are unchanged. This composes the corrected load: as written, the constructor has already done the first load, so every `setMode` throws at EqualizerPanel.js line 97 and its success branch never runs |
| Equalizer.SecondLoadThrows | Client/scripts/controllers/EqualizerPanel.js:87-98 | As written, the first output load succeeds and the second throws |
| Equalizer.EditThenReset | Client/scripts/controllers/EqualizerPanel.js:240-243 | After a band edit and `reset`, the rendered document is the unedited original, which the edit never touched |
| Wav.Ascii | Client/scripts/utils/samplesToWav.js:10-14 | `writeString` stores one byte per character, the character code modulo 256 |
| Wav.U16RoundTrip | Client/scripts/utils/samplesToWav.js:24 | Decoding a little-endian u16 field gives back the value written, modulo 2^16 |
| Wav.U32RoundTrip | Client/scripts/utils/samplesToWav.js:18 | Decoding a little-endian u32 field gives back the value written, modulo 2^32 |
| Wav.I16RoundTrip | Client/scripts/utils/samplesToWav.js:39 | Decoding an int16 field gives back any value in `[-32768, 32767]` |
| Wav.Clip | Client/scripts/utils/samplesToWav.js:38 | The clipped sample is in `[-1, 1]`, and a sample already inside is kept |
| Wav.Quantise | Client/scripts/utils/samplesToWav.js:38-39 | The stored value is `trunc(clip(s)·32767)`: within `[-32767, 32767]`, ±32767 at full scale, same sign as the input |
| Wav.QuantiseMonotone | Client/scripts/utils/samplesToWav.js:38-39 | A larger sample never gets a smaller stored value |
| Wav.RiffHeader | Client/scripts/utils/samplesToWav.js:17-19 | The RIFF form header is 12 bytes |
| Wav.FmtChunk | Client/scripts/utils/samplesToWav.js:22-29 | The `fmt ` chunk is 24 bytes |
| Wav.DataHeader | Client/scripts/utils/samplesToWav.js:32-33 | The `data` chunk header is 8 bytes |
| Wav.Header | Client/scripts/utils/samplesToWav.js:17-33 | The header is 44 bytes |
| Wav.SampleBytes | Client/scripts/utils/samplesToWav.js:36-41 | The data chunk has two bytes per sample |
| Wav.SampleBytesAt | Client/scripts/utils/samplesToWav.js:36-41 | Sample `i` occupies bytes `2i` and `2i+1` of the data chunk as the LE int16 of its quantised value. The offset advances by exactly 2, so order is kept |
| Wav.WavLength | Client/scripts/utils/samplesToWav.js:7 | The file is `44 + 2n` bytes |
| Wav.HeaderLayout | Client/scripts/utils/samplesToWav.js:17-33 | "RIFF" at 0, `36 + 2n` at 4, "WAVE" at 8, "data" at 36, `2n` at 40 |
| Wav.FmtChunkFields | Client/scripts/utils/samplesToWav.js:22-29 | The order of the `fmt ` fields: tag, 16, 1, 1, rate, 2·rate, 2, 16 |
| Wav.FmtLayout | Client/scripts/utils/samplesToWav.js:22-29 | "fmt " at 12, size 16 at 16, format 1 at 20, one channel at 22, rate at 24, byte rate `2·rate` at 28, block align 2 at 32, 16 bits at 34 |
| Wav.SizeFields | Client/scripts/utils/samplesToWav.js:18-33 | Reading the RIFF size and the data size back gives `36 + 2n` and `2n` (modulo 2^32) |
| Wav.FormatFields | Client/scripts/utils/samplesToWav.js:23-29 | Reading the constant `fmt ` fields back gives 16, 1, 1, 2 and 16 |
| Wav.RateFields | Client/scripts/utils/samplesToWav.js:26-27 | Reading the rate and the byte rate back gives `rate` and `2·rate` (modulo 2^32) |
| Wav.SampleRoundTrip | Client/scripts/utils/samplesToWav.js:36-41 | The int16 read at `44 + 2i` is the quantised sample `i` |
| Wav.SetBytes | Client/scripts/utils/samplesToWav.js:10-14 | One DataView write puts its bytes at the offset and leaves every other byte as it was |
| Wav.WriteRiffHeader | Client/scripts/utils/samplesToWav.js:17-19 | Bytes 0–11 become the RIFF form header |
| Wav.WriteFmtChunk | Client/scripts/utils/samplesToWav.js:22-29 | Bytes 12–35 become the `fmt ` chunk and bytes 0–11 are kept |
| Wav.WriteDataHeader | Client/scripts/utils/samplesToWav.js:32-33 | Bytes 36–43 become the `data` header and bytes 0–35 are kept |
| Wav.SamplesToWav | Client/scripts/utils/samplesToWav.js:1-44 | The buffer written is exactly WavFile: the header followed by the quantised samples, whose layout and round trips the lemmas above state |
| FftServer.NextPowerOfTwo | Server/Cppserver.cpp:15-23 | The doubling loop returns a power of two `p ≥ n` with `p/2 < n` (or 1). It returns 1 for `n ≤ 1`. The same function is at server.cpp lines 12-20 |
| FftServer.NextPowerOfTwoLeast | Server/Cppserver.cpp:15-23 | That power of two is the least one at or above `n` |
| FftServer.NextPow2 | Server/server.cpp:12-20 | The value of `next_power_of_2`: a power of two at or above `n`, with its half below `n` |
| FftServer.NextPow2Is | Server/server.cpp:12-20 | Any power of two meeting those bounds equals NextPow2: the loop's result is unique |
| FftServer.Padded | Server/Cppserver.cpp:126-129 | The buffer has length `n`: the samples as real coefficients, then zeros |
| FftServer.ZeroPad | Server/Cppserver.cpp:165-169 | The fresh buffer holds exactly Padded. The same loop is at server.cpp lines 123-127 |
| FftServer.BinFreqAscending | Server/Cppserver.cpp:136 | For `fs > 0`, `i·fs/n` strictly increases with `i` |
| FftServer.FrequencyAxis | Server/Cppserver.cpp:133-138 | `count` entries with `frequencies[i] = i·fs/n`, ascending for `fs > 0`. The same loop is at server.cpp lines 91-96 |
| FftServer.SpectrumAxisSpan | Server/Cppserver.cpp:186-191 | For even `n` the reported axis runs from 0 to the Nyquist frequency `fs/2` |
| FftServer.GainProductOutside | Server/Cppserver.cpp:175-183 | A frequency that no band holds gets gain product 1 |
| FftServer.GainProductStep | Server/Cppserver.cpp:175-183 | Each band multiplies the product by its gain exactly when its `[low, high]` holds the frequency |
| FftServer.BinGainMirror | Server/Cppserver.cpp:180 | For `0 < i < n/2`, bin `n - i` gets exactly the gain of bin `i`. The same line is at server.cpp line 138 |
| FftServer.BinGainUntouched | Server/Cppserver.cpp:175-183 | A bin `i ≤ n/2` whose frequency no band holds keeps gain 1 |
| FftServer.Equalized | Server/Cppserver.cpp:175-183 | The equalized spectrum has the length of the input |
| FftServer.ApplyBandGains | Server/Cppserver.cpp:175-183 | After the band and bin loops, every bin `j` is its original value scaled by BinGain. For `j ≤ n/2` that is the product of the gains of the bands holding `j·fs/n`. For `n/2 < j < n` it is the gain of the mirror `n - j`. DC and Nyquist are scaled once. The same loops are at server.cpp lines 133-141 |
| FftServer.Magnitudes | Server/Cppserver.cpp:133-138 | The first `count` magnitudes of the transformed buffer, in order |
| FftServer.CalculateFft | Server/Cppserver.cpp:126-138 | `/calculatefft`: `n/2 + 1` frequencies and magnitudes for the least power of two `n ≥ len`, with `frequencies[i] = i·fs/n` and the magnitudes of the padded transform. The same endpoint is at server.cpp lines 84-96 |
| FftServer.ApplyEqualizer | Server/Cppserver.cpp:165-198 | `/applyEqualizer` returns exactly `original_size` samples, the real parts of the inverse of the equalized padded spectrum. It also reports the `n/2 + 1` frequencies `i·fs/n` and the magnitudes of the equalized bins. The same endpoint is at server.cpp lines 123-156 |
| FftServer.FrameInput | Server/Cppserver.cpp:73-82 | Frame buffer entry `i` is `samples[start+i]·window[i]` while inside the signal, and zero after |
| FftServer.FillFrame | Server/Cppserver.cpp:73-82 | The reused buffer is overwritten with exactly FrameInput, reading `samples[start+i]` only for `i < remain` |
| FftServer.MagFrame | Server/Cppserver.cpp:88-90 | A magnitude frame has `W/2 + 1` entries, the magnitudes of the frame's transform |
| FftServer.Stft | Server/Cppserver.cpp:56-94 | `stft` emits `ceil(len/hop)` frames (none for an empty signal). Frame `t` starts at `t·hop` and is MagFrame of that start |
| FftServer.StftCoversEverySample | Server/Cppserver.cpp:70-82 | With a hop no longer than the window, every sample falls in some emitted frame |
| FftServer.TimeAxis | Server/Cppserver.cpp:235-237 | `x[t] = t·hop/fs`, increasing for positive `fs` |
| FftServer.Transposed | Server/Cppserver.cpp:240-243 | `z` has `bins` rows of `numFrames` entries with `z[f][t] = frames[t][f]` |
| FftServer.TransposedTwice | Server/Cppserver.cpp:240-243 | Transposing back gives the frames again |
| FftServer.Transpose | Server/Cppserver.cpp:240-243 | The nested loop fills exactly Transposed |
| FftServer.Spectrogram | Server/Cppserver.cpp:219-243 | `/spectrogram`: `y[k] = k·fs/2048` for 1025 bins, `ceil(len/512)` times `x[t] = t·512/fs`, and `z[f][t]` the bin `f` magnitude of frame `t` |
| ServerPy.Pow2 | Server/ServerPy.py:70 | `1 << k` is a power of two, even for `k ≥ 1` |
| ServerPy.BitLengthBounds | Server/ServerPy.py:70 | `2^bit_length(m)` is above `m` and, for `m ≥ 1`, at most `2m` |
| ServerPy.PyNextPowerOfTwo | Server/ServerPy.py:69-70 | A power of two at or above `n`. It equals the C++ least power of two for `n ≥ 1` and is 2 for `n = 0` |
| ServerPy.NextPowerOfTwoServersCompared | Server/ServerPy.py:69-70 | The Python and C++ helpers agree exactly when `n ≥ 1` |
| ServerPy.FftFreq | Server/ServerPy.py:121 | `fftfreq` entry `i` is `i·fs/n` for `i ≤ (n-1)/2` and `-(n-i)·fs/n` above |
| ServerPy.FftFreqs | Server/ServerPy.py:121 | The full `fftfreq` array, one FftFreq per bin |
| ServerPy.VisibleAxis | Server/ServerPy.py:93 | The reported axis is the first `n//2 + 1` entries of `fftfreq` |
| ServerPy.VisibleAxisEndsNegative | Server/ServerPy.py:134 | For even `n` and `fs > 0` the last reported frequency is `-fs/2`, below every other entry |
| ServerPy.HalfAxisNonNegative | Server/ServerPy.py:285-286 | The first `N//2` entries of `fftfreq` are the non-negative `i·fs/N` |
| ServerPy.NegativeMask | Server/ServerPy.py:130 | The negative mask holds `f` exactly when the band holds `-f` |
| ServerPy.DcGainSquared | Server/ServerPy.py:124-131 | The DC bin's gain is the square of the C++ gain: both masks of every band with `low ≤ 0 ≤ high` scale it |
| ServerPy.DcGainExample | Server/ServerPy.py:124-131 | The band `[0, 250]` with gain 2 scales DC by 4 in Python and by 2 in C++ |
| ServerPy.PyGainMatchesAboveDc | Server/ServerPy.py:124-131 | When every band starts above 0 Hz, every bin (mirror bins included) gets exactly the C++ gain |
| ServerPy.PyEqualized | Server/ServerPy.py:124-131 | Every bin is scaled by the product of the gains of the bands holding its frequency times those of the bands holding its negation |
| ServerPy.ScaleMasked | Server/ServerPy.py:127 | `fft_data[mask] *= value` scales exactly the masked bins and keeps the rest |
| ServerPy.ApplyBandMasks | Server/ServerPy.py:126-131 | One band scales each bin by its gain once per mask that holds it |
| ServerPy.PyApplyBandGains | Server/ServerPy.py:124-131 | After the band loop the buffer is PyEqualized of the original |
| ServerPy.PyApplyEqualizer | Server/ServerPy.py:107-144 | Exactly `n_original` output samples, the real parts of the inverse of the masked spectrum. The reported frequencies are the first `n//2 + 1` `fftfreq` entries, with the magnitudes of those masked bins |
| ServerPy.PyFramesWhole | Server/ServerPy.py:165-173 | Every counted frame lies wholly inside the signal, and one more would not: no partial frame |
| ServerPy.FrameCountsCompared | Server/ServerPy.py:169 | The Python count never exceeds the C++ one. With the 4:1 window/hop ratio it is 3 or 4 fewer on long signals, and 0 where C++ has at least one |
| ServerPy.WholeFrameInput | Server/ServerPy.py:170 | A whole frame is the windowed slice `samples[pos : pos+W]·window`, with no zero padding |
| ServerPy.PySpectrogramFrames | Server/ServerPy.py:165-173 | `floor((len-W)/H) + 1` frames when `len ≥ W`, none otherwise. Frame `t` starts at `t·H`, lies inside the signal and is its MagFrame |
| ServerPy.PyTransposed | Server/ServerPy.py:182 | `.T` of the frame matrix is Transposed when there are frames and the empty list when there are none |
| ServerPy.PySpectrogram | Server/ServerPy.py:153-188 | `y[k] = k·fs/2048` for 1025 bins, `x[t] = t·512/fs` for each whole frame, and `z[f][t]` the bin `f` magnitude of frame `t`, equal to the C++ frame at the same index. With `fs = 0` and fewer than 2048 samples, x and z are empty and y is all zeros |
| ServerPy.Replace | Server/ServerPy.py:214 | `replace` maps each matching character and keeps the rest, leaving none of the replaced character |
| ServerPy.SavedUrl | Server/ServerPy.py:214 | The returned URL contains no backslash |
| ServerPy.SavedUrlShape | Server/ServerPy.py:207-214 | The URL is `public/<mode>_output.wav` with backslashes turned into slashes, unless the mode starts with `/` (then the join discards `public`) |
| ServerPy.SavedPcm | Server/ServerPy.py:202 | Each stored int16 is `trunc(clip(s, -1, 1)·32767)`, within `[-32767, 32767]`, in order |
| ServerPy.SavedPcmMatchesClientWav | Server/ServerPy.py:202 | The server stores the same int16 values that the client's WAV encoder writes at `44 + 2i` |
| ServerPy.ParsedSliders | Server/ServerPy.py:233-236 | Unparseable slider JSON becomes the empty list. Otherwise the parsed list is used (the same handling is at lines 362-365) |
| ServerPy.StemIndex | Server/ServerPy.py:261-263 | Only drums, vocals, violin and bass_guitar map to a stem, and the stem is one of 0, 2, 3, 5 |
| ServerPy.MusicPairs | Server/ServerPy.py:267-275 | The mixed `(stem, gain)` pairs, in slider order, all from the stem map |
| ServerPy.MusicPairsFail | Server/ServerPy.py:267-275 | The gain loop fails exactly when a stem-named entry has no `value` |
| ServerPy.MusicPairsCount | Server/ServerPy.py:267-275 | One pair per stem-named entry: entries naming no stem contribute nothing |
| ServerPy.WeightedSum | Server/ServerPy.py:266-275 | The mix has one value per sample |
| ServerPy.AddScaled | Server/ServerPy.py:273-275 | `mix += source·gain` adds to every sample and to nothing else |
| ServerPy.WeightedSumAppend | Server/ServerPy.py:273-275 | One more pair adds its stem times its gain to the mix of the pairs before it |
| ServerPy.WeightedSumSingle | Server/ServerPy.py:266-275 | No pairs give silence, and one pair gives its source times its gain |
| ServerPy.MaxAbs | Server/ServerPy.py:278 | `max(abs(mix))` bounds every magnitude and is attained |
| ServerPy.Normalised | Server/ServerPy.py:277-280 | After normalisation every value is in `[-1, 1]`. A positive peak divides every value and the peak reaches magnitude 1. A silent mix is kept |
| ServerPy.MusicMix | Server/ServerPy.py:233-280 | `/MusicAi` on one channel: the normalised weighted sum of the paired stems, failing when MusicPairs fails. Silence for unparseable sliders |
| ServerPy.HumanPairs | Server/ServerPy.py:367-370 | Every pair's source index is below the number of sources |
| ServerPy.HumanPairsShape | Server/ServerPy.py:367-370 | Slider `i` scales source `i` for each `i` below both counts, and later sliders are ignored. The loop fails exactly when a used object entry has no `value` |
| ServerPy.HumanMix | Server/ServerPy.py:360-370 | `/HumanAi`'s mix is the weighted sum of HumanPairs, failing exactly when HumanPairs fails |

## Left out

- The FFT, inverse FFT, `rfft`, Hann window and magnitude are parameters. Their floating-point numerics are not modelled.
- The `Complex` and `real` types are exact. Double, float32 and torch tensor rounding are not modelled.
- The Demucs and asteroid source separation and model loading are left out. Separated sources are inputs, already reduced to one channel: the mean over source channels and the stereo duplication of the mix are not modelled. The input normalisation before separation (ServerPy.py lines 252-253) only feeds the model and is left out too.
- The FFT outputs of `/MusicAi` and `/HumanAi` are left out except for their axis (HalfAxisNonNegative). Writing the separated sources to files is left out.
- HTTP routing, CORS headers, JSON parsing and the 400/500 error responses are left out. Request fields are taken as already decoded.
- Non-list slider JSON, non-string names and non-numeric values are left out. A slider entry is an object with optional `name`/`value`, or any other value.
- `size_t` overflow in the C++ servers is left out, because lengths are unbounded naturals.
- `save_eq` on Windows is left out: the join is the POSIX one. The directory creation, the file write and its failure, and scipy's own WAV header are left out as well.
- DOM lookups, canvas strokes, Plotly calls, CSS gradient strings and the labels are left out. So is the "No bands defined" markup, which is modelled as the pane value only.
- The HTML `Audio` element's play, pause, mute, speed and seeking are left out, together with `setSpeed`, `toggleMute`, `updateDuration` and `downloadJson`. The resource is its source string.
- `FileReader` upload and signal decoding (`fileController.js`) are left out. A decoded signal is a `Loaded` value.
- The asynchronous promise chain of `setMode` and of the panel constructor is left out. Only the success/failure ordering is modelled, and a constructor load failure is not modelled.
- `timeupdate` listeners are left out. Listeners are never truly removed (SignalViewer.js line 173 removes a fresh bound function), so stale subscriptions are not modelled.
- Waveform.SignalViewer.Render: when the playhead is left of the window (`currentPixel < 0`), the source's unplayed stroke starts at a negative column and reads indices before `startSample`. The model starts that stroke at column 0 and draws no off-canvas columns.
- Waveform.SignalViewer.Pan: requires the slider value to lie in `[0, 1]`, the range of the pan input. The same holds for Spectrum.FourierController.Pan and SpectrogramView.SpectogramController.Pan.
- Waveform.SignalViewer.Stop: the resource's own pause and rewind are not modelled, only the viewer's fields.
- Spectrum.FourierController.GetVisibleData: a magnitude index past the end of a shorter `magnitudes` array is JavaScript's `undefined`, modelled as `None` (MagAt).
- Wav.SamplesToWav: the default `sampleRate = 44100` of samplesToWav.js line 1 is not modelled; the rate is always passed. The sample rate is an integer. A fractional `sampleRate` is not modelled, and neither are NaN samples (whose conversion gives 0).
- FftServer.Spectrogram: requires `fs != 0`. C++ would produce infinite and NaN axis values for `fs = 0` instead of failing. The same applies to FftServer.TimeAxis and FftServer.FrameTime.
- ServerPy.PyApplyEqualizer: requires `fs != 0`, where Python raises on `1/fs`.
- ServerPy.PySpectrogram: requires `fs != 0` when there is at least one whole frame. There numpy's `np.arange(num_frames) * hop_size / fs` fills x with infinite and NaN values and warns instead of raising, which reals cannot express. With fewer than 2048 samples, `fs = 0` is modelled.
- ServerPy.MusicMix: requires a non-empty signal (`np.max` of an empty array raises) and at least the six stems of the six-stem model.
- ServerPy.WeightedSum: its own contract gives only the length. The per-sample content is stated by AddScaled and WeightedSumAppend.
- Wav.RiffHeader, Wav.FmtChunk, Wav.DataHeader, Wav.Header, Wav.SampleBytes: their own contracts give only lengths. Field positions and values are stated by HeaderLayout, FmtLayout, SampleBytesAt and the decode lemmas.
- FftServer.Equalized: its own contract gives only the length. The per-bin gain is stated by ApplyBandGains with BinGainMirror, BinGainUntouched and GainProductStep.
- The `/calculatefft` of ServerPy.py (lines 79-99) is modelled by its axis (VisibleAxis) and padding (PyNextPowerOfTwo). Its magnitudes are those of the padded transform, as in PyApplyEqualizer.

## Findings

| source | as written | input that shows it | evidently intended | confidence | as-written member | corrected member |
|---|---|---|---|---|---|---|
| Server/ServerPy.py:124-131 | A bin whose frequency matches both the positive and the negative mask of a band is scaled twice. The DC bin matches both whenever `low ≤ 0 ≤ high` | One band `[0, 250]` with gain 2: DC is scaled by 4, the C++ servers scale it by 2 | Each band scales a bin once, as the C++ gain loop does | not executed | ServerPy.DcGainExample | FftServer.ApplyBandGains |
| Server/ServerPy.py:93 | The reported axis `fftfreq(n)[: n//2 + 1]` ends at numpy's negative Nyquist entry | `n = 4`, `fs = 4`: the axis is `[0, 1, -2]` instead of `[0, 1, 2]` | An ascending axis `0 … fs/2` as the C++ servers report | not executed | ServerPy.VisibleAxisEndsNegative | FftServer.FrequencyAxis |
| Client/scripts/controllers/EqualizerPanel.js:97 | The existing output waveform viewer is refreshed through `updateSamples`, which SignalViewer does not define, so every load after the first throws | Any `setMode` after the panel is built (the constructor already did the first load): the promise rejects, the sliders are not redrawn, and the output waveform and spectrum keep the initial mode's output | Refresh the viewer with `updateData(samples, null, path)` (SignalViewer.js line 164) | not executed | Equalizer.SecondLoadThrows | Equalizer.EqualizerPanel.LoadPrecomputedOutput |

=== FILE: common.dfy ===
/** Value types and numeric helpers shared by the client viewers and the servers. */
module Common {

  datatype Option<T> = None | Some(value: T)

  function Min(a: real, b: real): real { if a <= b then a else b }

  function Max(a: real, b: real): real { if a >= b then a else b }

  function MinInt(a: int, b: int): int { if a <= b then a else b }

  function MaxInt(a: int, b: int): int { if a >= b then a else b }

  /** `Math.ceil` on a JavaScript number: the least integer at or above `x`. */
  function Ceil(x: real): (c: int)
    ensures (c - 1) as real < x <= c as real
  {
    -((-x).Floor)
  }

  /** Truncation toward zero, as a C cast, numpy's float-to-int16 cast and
      JavaScript's ToInt16 (before its modulo) all perform it. */
  function Trunc(x: real): (t: int)
    ensures 0.0 <= x ==> 0 <= t && t as real <= x < t as real + 1.0
    ensures x < 0.0 ==> t <= 0 && t as real - 1.0 < x <= t as real
  {
    if x >= 0.0 then x.Floor else -((-x).Floor)
  }

  /** `(a + b - 1) / b` for positive `b`: the number of strides of length `b`
      needed to start at least once in every block of `a` items. */
  function CeilDiv(a: nat, b: nat): (q: nat)
    requires b > 0
    ensures q * b >= a
    ensures q > 0 ==> (q - 1) * b < a
  {
    CeilDivBounds(a, b);
    (a + b - 1) / b
  }

  lemma CeilDivBounds(a: nat, b: nat)
    requires b > 0
    ensures ((a + b - 1) / b) * b >= a
    ensures (a + b - 1) / b > 0 ==> ((a + b - 1) / b - 1) * b < a
  {
    var q := (a + b - 1) / b;
    var r := (a + b - 1) % b;
    assert a + b - 1 == q * b + r;
    assert q * b >= a by {
      assert q * b == a + b - 1 - r;
    }
    if q > 0 {
      assert (q - 1) * b == q * b - b;
    }
  }

  /** A spectral coefficient; its numeric value comes from an FFT that the
      model does not compute, so only scaling by a real gain is modelled. */
  datatype Complex = Complex(re: real, im: real)

  const Zero: Complex := Complex(0.0, 0.0)

  /** `c *= g` with a real gain `g`. */
  function Scale(c: Complex, g: real): Complex
  {
    Complex(c.re * g, c.im * g)
  }

  /** Scaling twice is scaling once by the product of the gains. */
  lemma ScaleScale(c: Complex, a: real, b: real)
    ensures Scale(Scale(c, a), b) == Scale(c, a * b)
  {
    assert c.re * a * b == c.re * (a * b);
    assert c.im * a * b == c.im * (a * b);
  }

  lemma ScaleOne(c: Complex)
    ensures Scale(c, 1.0) == c
  {
  }

  /** A band as both equalizer endpoints read it: `low`, `high` and `value`. */
  datatype GainBand = GainBand(low: real, high: real, gain: real)

  /** The band test of both servers: `freq >= low && freq <= high`. */
  predicate InBand(b: GainBand, freq: real)
  {
    b.low <= freq <= b.high
  }

  /** The count the two bounds of CeilDiv pin down is unique. */
  lemma CeilDivUnique(a: nat, b: nat, q: nat)
    requires b > 0 && q * b >= a && (q == 0 || (q - 1) * b < a)
    ensures q == CeilDiv(a, b)
  {
    var c := CeilDiv(a, b);
    if q < c {
      MulLeftMono(q, c - 1, b);
    } else if c < q {
      MulLeftMono(c, q - 1, b);
    }
  }

  /** Mathematical facts used by several modules. */
  lemma MulLeftMono(a: int, b: int, c: nat)
    requires a <= b
    ensures a * c <= b * c
  {
  }

  lemma MulCancelLess(a: int, b: int, c: int)
    requires c > 0 && a * c < b * c
    ensures a < b
  {
  }

  /** Floor of a quotient, stated with multiplication: `q*d <= x < (q+1)*d`. */
  lemma FloorQuotient(x: real, d: real)
    requires d > 0.0
    ensures (x / d).Floor as real * d <= x < ((x / d).Floor + 1) as real * d
  {
    var r := x / d;
    var q := r.Floor;
    assert r * d == x;
    assert q as real * d <= r * d;
    var u := q as real + 1.0 - r;
    assert u * d > 0.0;
    assert u * d == (q as real + 1.0) * d - r * d;
    assert x < (q as real + 1.0) * d;
    assert (q + 1) as real == q as real + 1.0;
    assert x < (q + 1) as real * d;
  }
}

=== FILE: equalizer_panel.dfy ===
/** The equalizer side panel (`EqualizerPanel` over the shared application
    state): the band list of the current mode, its editing, the reset to the
    loaded document, mode switching and the output viewers. */
module Equalizer {
  import opened Common
  import opened Viewport
  import opened Waveform
  import opened Spectrum

  /** One slider of a mode: a named frequency band and its gain. */
  datatype Band = Band(name: string, low: real, high: real, value: real)

  /** One mode of the project document. Both keys may be absent. */
  datatype ModeEntry = ModeEntry(outputSignal: Option<string>, sliders: Option<seq<Band>>)

  /** The loaded project document: the input signal's path and the modes by name. */
  datatype Project = Project(originalSignal: string, modes: map<string, ModeEntry>)

  /** What decoding a signal file and computing its spectrum produced. */
  datatype Loaded = Loaded(samples: seq<real>, sampleRate: real, frequencies: seq<real>, magnitudes: seq<real>)

  /** The slider area: the placeholder or one row per band. */
  datatype SliderPane = NoBandsDefined | BandRows(rows: seq<Band>)

  /** The mode the application starts in. */
  const InitialMode: string := "generic"

  /** Range of every band slider: 0x to 2x in steps of 0.1. */
  const SliderMin: real := 0.0
  const SliderMax: real := 2.0
  const SliderStep: real := 0.1

  /** `doc[mode]?.sliders || []`: the bands of a mode, none when the mode or
      its `sliders` key is missing. The equalizer request sends the same list. */
  function ActiveBands(doc: Project, mode: string): (bands: seq<Band>)
    ensures mode in doc.modes && doc.modes[mode].sliders.Some? ==> bands == doc.modes[mode].sliders.value
    ensures mode !in doc.modes || doc.modes[mode].sliders.None? ==> bands == []
  {
    if mode in doc.modes && doc.modes[mode].sliders.Some? then doc.modes[mode].sliders.value else []
  }

  /** `doc[mode]?.output_signal`. */
  function OutputPath(doc: Project, mode: string): (p: Option<string>)
    ensures p.Some? <==> mode in doc.modes && doc.modes[mode].outputSignal.Some?
  {
    if mode in doc.modes then doc.modes[mode].outputSignal else None
  }

  /** What `renderSliders` shows for a band list. */
  function PaneOf(bands: seq<Band>): (p: SliderPane)
    ensures p.NoBandsDefined? <==> bands == []
    ensures p.BandRows? ==> p.rows == bands
  {
    if |bands| == 0 then NoBandsDefined else BandRows(bands)
  }

  /** `splice(index, 1)`: drop the band at `index`; an index past the end
      removes nothing. */
  function RemoveAt(s: seq<Band>, index: nat): (r: seq<Band>)
    ensures index < |s| ==> |r| == |s| - 1
    ensures index < |s| ==> forall k :: 0 <= k < index ==> r[k] == s[k]
    ensures index < |s| ==> forall k :: index <= k < |r| ==> r[k] == s[k + 1]
    ensures index >= |s| ==> r == s
  {
    if index < |s| then s[..index] + s[index + 1..] else s
  }

  /** Removing a band loses that band and nothing else. */
  lemma RemoveAtMultiset(s: seq<Band>, index: nat)
    requires index < |s|
    ensures multiset(RemoveAt(s, index)) + multiset{s[index]} == multiset(s)
  {
    assert s == s[..index] + [s[index]] + s[index + 1..];
  }

  /** `sliders[i].value = v`: only that band's gain changes. */
  function WithValue(s: seq<Band>, i: nat, v: real): (r: seq<Band>)
    requires i < |s|
    ensures |r| == |s|
    ensures forall k :: 0 <= k < |s| && k != i ==> r[k] == s[k]
    ensures r[i].value == v && r[i].name == s[i].name && r[i].low == s[i].low && r[i].high == s[i].high
  {
    s[i := s[i].(value := v)]
  }

  /** The document with the bands of `mode` replaced; the mode must have
      a `sliders` key. */
  function WithBands(doc: Project, mode: string, bands: seq<Band>): (d: Project)
    requires mode in doc.modes && doc.modes[mode].sliders.Some?
    ensures d.originalSignal == doc.originalSignal && d.modes.Keys == doc.modes.Keys
    ensures forall m :: m in doc.modes && m != mode ==> d.modes[m] == doc.modes[m]
    ensures d.modes[mode].outputSignal == doc.modes[mode].outputSignal
    ensures ActiveBands(d, mode) == bands
  {
    Project(doc.originalSignal, doc.modes[mode := doc.modes[mode].(sliders := Some(bands))])
  }

  class EqualizerPanel {
    /** `appState.mode`, `renderedJson` and `originalJson`. */
    var mode: string
    var rendered: Project
    var original: Project
    /** The slider area as last rendered. */
    var pane: SliderPane
    var inputViewer: SignalViewer
    var inputFFT: FourierController
    var outputViewer: SignalViewer?
    var outputFFT: FourierController?

    ghost predicate Valid()
      reads this, inputViewer, inputFFT, outputViewer, outputFFT
    {
      && inputViewer.Valid() && inputFFT.Valid()
      && (outputViewer != null ==> outputViewer.Valid() && outputViewer != inputViewer)
      && (outputFFT != null ==> outputFFT.Valid() && outputFFT != inputFFT)
    }

    /** Opening a project: both documents are the loaded one, the mode is the
        initial one, the input viewers show the input signal, the output
        viewers are built for the mode's output, and the sliders are drawn. */
    constructor (doc: Project, input: Loaded, output: Loaded)
      requires input.sampleRate > 0.0 && output.sampleRate > 0.0
      ensures Valid()
      ensures mode == InitialMode && rendered == doc && original == doc
      ensures pane == PaneOf(ActiveBands(doc, InitialMode))
      ensures outputViewer != null && outputFFT != null
      ensures inputViewer.samples == input.samples && inputViewer.audio == SignalViewer.AudioOf(Some(doc.originalSignal))
      ensures inputFFT.frequencies == input.frequencies && inputFFT.magnitudes == input.magnitudes
      ensures outputViewer.samples == output.samples && outputViewer.audio == SignalViewer.AudioOf(OutputPath(doc, InitialMode))
      ensures outputFFT.frequencies == output.frequencies && outputFFT.magnitudes == output.magnitudes
    {
      mode := InitialMode;
      rendered := doc;
      original := doc;
      inputViewer := new SignalViewer(input.samples, input.sampleRate, Some(doc.originalSignal));
      inputFFT := new FourierController(input.frequencies, input.magnitudes);
      outputViewer := new SignalViewer(output.samples, output.sampleRate, OutputPath(doc, InitialMode));
      outputFFT := new FourierController(output.frequencies, output.magnitudes);
      pane := PaneOf(ActiveBands(doc, InitialMode));
    }

    /** `renderSliders`: the placeholder for a mode without bands, one row
        per band otherwise. */
    method RenderSliders()
      modifies this`pane
      ensures pane == PaneOf(ActiveBands(rendered, mode))
      ensures pane.NoBandsDefined? <==> ActiveBands(rendered, mode) == []
    {
      pane := PaneOf(ActiveBands(rendered, mode));
    }

    /** `removeBand(index)`: nothing when the mode has no `sliders` key;
        otherwise splice the band out and re-render. */
    method RemoveBand(index: nat)
      modifies this`rendered, this`pane
      ensures original == old(original) && mode == old(mode)
      ensures mode !in old(rendered).modes || old(rendered).modes[mode].sliders.None? ==>
        rendered == old(rendered) && pane == old(pane)
      ensures mode in old(rendered).modes && old(rendered).modes[mode].sliders.Some? ==>
        && rendered == WithBands(old(rendered), mode, RemoveAt(old(rendered).modes[mode].sliders.value, index))
        && pane == PaneOf(ActiveBands(rendered, mode))
    {
      if !(mode in rendered.modes && rendered.modes[mode].sliders.Some?) {
        return;
      }
      rendered := WithBands(rendered, mode, RemoveAt(rendered.modes[mode].sliders.value, index));
      RenderSliders();
    }

    /** The `input` handler of slider `i`: store the slider's value in band
        `i` of the current mode if that band exists. The pane is not redrawn. */
    method SetBandValue(i: nat, v: real)
      requires SliderMin <= v <= SliderMax
      modifies this`rendered
      ensures original == old(original) && mode == old(mode)
      ensures 0.0 <= TrackPercent(v, SliderMin, SliderMax) <= 100.0
      ensures i < |ActiveBands(old(rendered), mode)| && old(rendered).modes[mode].sliders.Some? ==>
        rendered == WithBands(old(rendered), mode, WithValue(old(rendered).modes[mode].sliders.value, i, v))
      ensures i >= |ActiveBands(old(rendered), mode)| ==> rendered == old(rendered)
    {
      if mode in rendered.modes && rendered.modes[mode].sliders.Some? && i < |rendered.modes[mode].sliders.value| {
        rendered := WithBands(rendered, mode, WithValue(rendered.modes[mode].sliders.value, i, v));
      }
    }

    /** `reset`: the rendered document becomes a copy of the original one,
        discarding every band edit, and the sliders are redrawn. */
    method Reset()
      modifies this`rendered, this`pane
      ensures rendered == original && original == old(original)
      ensures pane == PaneOf(ActiveBands(original, mode))
    {
      rendered := original;
      RenderSliders();
    }

    /** `_loadPrecomputedOutput` as written: the output viewers are built
        when absent; when the waveform viewer already exists the call to its
        `updateSamples` method, which it does not define, throws before
        anything changes. `ok` is false exactly then. */
    method LoadPrecomputedOutputAsWritten(out: Loaded) returns (ok: bool)
      requires Valid() && out.sampleRate > 0.0
      modifies this`outputViewer, this`outputFFT, outputFFT
      ensures Valid()
      ensures ok <==> old(outputViewer) == null
      ensures !ok ==> outputViewer == old(outputViewer) && outputFFT == old(outputFFT)
      ensures ok ==> fresh(outputViewer) && outputViewer.samples == out.samples
      ensures ok ==> (outputViewer != null && outputViewer.sampleRate == out.sampleRate
        && outputViewer.audio == SignalViewer.AudioOf(OutputPath(rendered, mode)))
      ensures ok && old(outputFFT) == null ==> fresh(outputFFT)
      ensures ok && old(outputFFT) != null ==> outputFFT == old(outputFFT)
      ensures ok ==> (outputViewer != null && outputViewer.zoom == 1.0 && outputViewer.offset == 0.0
        && outputViewer.currentTime == 0.0 && !outputViewer.isPlaying
        && outputViewer.time == TimeAxis(|out.samples|, out.sampleRate))
      ensures ok ==> outputFFT != null && outputFFT.frequencies == out.frequencies && outputFFT.magnitudes == out.magnitudes
      ensures ok ==> outputFFT != null && outputFFT.zoom == 1.0 && outputFFT.offset == 0.0
      ensures !ok && outputFFT != null ==> unchanged(outputFFT)
    {
      var path := OutputPath(rendered, mode);
      if outputViewer == null {
        outputViewer := new SignalViewer(out.samples, out.sampleRate, path);
      } else {
        return false;
      }
      if outputFFT == null {
        outputFFT := new FourierController(out.frequencies, out.magnitudes);
      } else {
        outputFFT.UpdateData(out.frequencies, out.magnitudes);
      }
      return true;
    }

    /** `_loadPrecomputedOutput` with the existing waveform viewer refreshed
        through `updateData`: each output viewer is built once and afterwards
        updated in place, so the same instances keep showing the output. */
    method LoadPrecomputedOutput(out: Loaded)
      requires Valid() && out.sampleRate > 0.0
      modifies this`outputViewer, this`outputFFT, outputViewer, outputFFT
      ensures Valid()
      ensures outputViewer != null && outputFFT != null
      ensures old(outputViewer) == null ==> fresh(outputViewer)
      ensures old(outputViewer) != null ==> outputViewer == old(outputViewer)
      ensures old(outputFFT) == null ==> fresh(outputFFT)
      ensures old(outputFFT) != null ==> outputFFT == old(outputFFT)
      ensures outputViewer.samples == out.samples && outputViewer.currentTime == 0.0
      ensures old(outputViewer) == null ==> (outputViewer.sampleRate == out.sampleRate
        && outputViewer.audio == SignalViewer.AudioOf(OutputPath(rendered, mode)))
      ensures old(outputViewer) != null ==> (outputViewer.sampleRate == old(outputViewer.sampleRate)
        && outputViewer.audio == (if SignalViewer.AudioOf(OutputPath(rendered, mode)).Some? then OutputPath(rendered, mode) else old(outputViewer.audio)))
      ensures old(outputViewer) == null ==> (outputViewer.zoom == 1.0 && outputViewer.offset == 0.0 && !outputViewer.isPlaying)
      ensures old(outputViewer) != null ==> (outputViewer.zoom == old(outputViewer.zoom)
        && outputViewer.offset == old(outputViewer.offset) && outputViewer.isPlaying == old(outputViewer.isPlaying))
      ensures |outputViewer.time| == |out.samples|
      ensures forall i :: 0 <= i < |outputViewer.time| ==> outputViewer.time[i] * outputViewer.sampleRate == i as real
      ensures outputFFT.frequencies == out.frequencies && outputFFT.magnitudes == out.magnitudes
      ensures outputFFT.zoom == 1.0 && outputFFT.offset == 0.0
    {
      var path := OutputPath(rendered, mode);
      if outputViewer == null {
        outputViewer := new SignalViewer(out.samples, out.sampleRate, path);
      } else {
        outputViewer.UpdateData(out.samples, None, path);
      }
      if outputFFT == null {
        outputFFT := new FourierController(out.frequencies, out.magnitudes);
      } else {
        outputFFT.UpdateData(out.frequencies, out.magnitudes);
      }
    }

    /** `setMode(name)`: switch the mode, reset the input viewers, then load
        the mode's output. `load` is None when loading failed: the error is
        logged, the new mode stays set and the sliders are not redrawn. */
    method SetMode(name: string, load: Option<Loaded>)
      requires Valid()
      requires load.Some? ==> load.value.sampleRate > 0.0
      modifies this`mode, this`pane, this`outputViewer, this`outputFFT
      modifies inputViewer, inputFFT, outputViewer, outputFFT
      ensures Valid()
      ensures mode == name && rendered == old(rendered) && original == old(original)
      ensures inputViewer == old(inputViewer) && inputFFT == old(inputFFT)
      ensures inputViewer.zoom == 1.0 && inputViewer.offset == 0.0
      ensures inputFFT.zoom == 1.0 && inputFFT.offset == 0.0
      ensures inputViewer.samples == old(inputViewer.samples) && inputViewer.time == old(inputViewer.time)
      ensures inputViewer.sampleRate == old(inputViewer.sampleRate) && inputViewer.audio == old(inputViewer.audio)
      ensures inputViewer.audio.Some? ==> inputViewer.currentTime == 0.0 && !inputViewer.isPlaying
      ensures inputViewer.audio.None? ==>
        inputViewer.currentTime == old(inputViewer.currentTime) && inputViewer.isPlaying == old(inputViewer.isPlaying)
      ensures inputFFT.frequencies == old(inputFFT.frequencies) && inputFFT.magnitudes == old(inputFFT.magnitudes)
      ensures load.None? ==> pane == old(pane) && outputViewer == old(outputViewer) && outputFFT == old(outputFFT)
      ensures load.None? && outputViewer != null ==> unchanged(outputViewer)
      ensures load.None? && outputFFT != null ==> unchanged(outputFFT)
      ensures load.Some? ==> pane == PaneOf(ActiveBands(rendered, name))
      ensures load.Some? ==> outputViewer != null && outputViewer.samples == load.value.samples && outputViewer.currentTime == 0.0
      ensures load.Some? ==> outputFFT != null && outputFFT.frequencies == load.value.frequencies && outputFFT.magnitudes == load.value.magnitudes
      ensures load.Some? ==> outputFFT != null && outputFFT.zoom == 1.0 && outputFFT.offset == 0.0
      ensures load.Some? && old(outputViewer) != null ==> outputViewer == old(outputViewer)
      ensures load.Some? && old(outputViewer) == null ==> (outputViewer != null
        && outputViewer.sampleRate == load.value.sampleRate && outputViewer.audio == SignalViewer.AudioOf(OutputPath(rendered, name)))
      ensures load.Some? && old(outputViewer) != null ==> (outputViewer != null && outputViewer.sampleRate == old(outputViewer.sampleRate)
        && outputViewer.audio == (if SignalViewer.AudioOf(OutputPath(rendered, name)).Some? then OutputPath(rendered, name) else old(outputViewer.audio)))
      ensures load.Some? && old(outputFFT) != null ==> outputFFT == old(outputFFT)
      ensures load.Some? && old(outputViewer) == null ==> (outputViewer != null
        && outputViewer.zoom == 1.0 && outputViewer.offset == 0.0 && !outputViewer.isPlaying)
      ensures load.Some? && old(outputViewer) != null ==> (outputViewer != null && outputViewer.zoom == old(outputViewer.zoom)
        && outputViewer.offset == old(outputViewer.offset) && outputViewer.isPlaying == old(outputViewer.isPlaying))
      ensures load.Some? ==> (outputViewer != null && |outputViewer.time| == |load.value.samples|
        && forall i :: 0 <= i < |outputViewer.time| ==> outputViewer.time[i] * outputViewer.sampleRate == i as real)
    {
      mode := name;
      inputViewer.Reset();
      inputFFT.Reset();
      if load.Some? {
        LoadPrecomputedOutput(load.value);
        RenderSliders();
      }
    }
  }

  /** As written, the first output load builds the viewers and every later
      one throws: after a mode switch the output is never refreshed. */
  method SecondLoadThrows(p: EqualizerPanel, a: Loaded, b: Loaded) returns (first: bool, second: bool)
    requires p.Valid() && p.outputViewer == null
    requires a.sampleRate > 0.0 && b.sampleRate > 0.0
    modifies p, p.outputFFT
    ensures first && !second
  {
    first := p.LoadPrecomputedOutputAsWritten(a);
    second := p.LoadPrecomputedOutputAsWritten(b);
  }

  /** Editing a band and then resetting leaves no trace of the edit. */
  method EditThenReset(p: EqualizerPanel, i: nat, v: real)
    requires SliderMin <= v <= SliderMax
    modifies p
    ensures p.rendered == old(p.original) && p.original == old(p.original)
  {
    p.SetBandValue(i, v);
    p.Reset();
  }
}

=== FILE: fft_server.dfy ===
/** The index logic of the C++ servers around the FFT: the power-of-two
    length, zero padding, the frequency axis, which bins a band's gain
    touches (with the conjugate mirror), the STFT framing and the transpose.
    The FFT itself, the Hann window values and the magnitude are not computed
    here: they are parameters. */
module FftServer {
  import opened Common

  /** 1, 2, 4, 8, ... */
  predicate IsPowerOfTwo(p: int)
    decreases p
  {
    p == 1 || (p >= 2 && p % 2 == 0 && IsPowerOfTwo(p / 2))
  }

  /** A power of two below another is at most half of it. */
  lemma {:induction false} PowerOfTwoBelow(q: int, p: int)
    requires IsPowerOfTwo(q) && IsPowerOfTwo(p) && q < p
    ensures p >= 2 && q <= p / 2
    decreases p
  {
    if q < p / 2 {
      PowerOfTwoBelow(q, p / 2);
    } else if q > p / 2 {
      PowerOfTwoBelow(p / 2, q);
    }
  }

  /** `next_power_of_2`: double `p` from 1 while it is below `n`. The result
      is the least power of two at or above `n`, and 1 for `n = 0`. */
  method NextPowerOfTwo(n: nat) returns (p: nat)
    ensures IsPowerOfTwo(p) && p >= n
    ensures p == 1 || p / 2 < n
    ensures n <= 1 ==> p == 1
  {
    p := 1;
    while p < n
      invariant IsPowerOfTwo(p)
      invariant p == 1 || p / 2 < n
      decreases n - p
    {
      p := p * 2;
    }
  }

  /** No power of two at or above `n` is smaller than the one the doubling
      loop stops at: the result is the least one. */
  lemma {:induction false} NextPowerOfTwoLeast(n: nat, p: nat, q: nat)
    requires IsPowerOfTwo(p) && p >= n && (p == 1 || p / 2 < n)
    requires IsPowerOfTwo(q) && q >= n
    ensures p <= q
  {
    if q < p {
      PowerOfTwoBelow(q, p);
    }
  }

  /** The FFT buffer: the samples as real coefficients, then zeros up to `n`. */
  function Padded(samples: seq<real>, n: nat): (d: seq<Complex>)
    requires |samples| <= n
    ensures |d| == n
    ensures forall i :: 0 <= i < |samples| ==> d[i] == Complex(samples[i], 0.0)
    ensures forall i :: |samples| <= i < n ==> d[i] == Zero
  {
    seq(n, i requires 0 <= i < n => if i < |samples| then Complex(samples[i], 0.0) else Zero)
  }

  /** `vector<complex<double>> data(n)` followed by the copy loop. */
  method ZeroPad(samples: seq<real>, n: nat) returns (data: array<Complex>)
    requires |samples| <= n
    ensures fresh(data) && data[..] == Padded(samples, n)
  {
    data := new Complex[n](_ => Zero);
    var i := 0;
    while i < |samples|
      invariant 0 <= i <= |samples|
      invariant forall k :: 0 <= k < i ==> data[k] == Complex(samples[k], 0.0)
      invariant forall k :: i <= k < n ==> data[k] == Zero
    {
      data[i] := Complex(samples[i], 0.0);
      i := i + 1;
    }
  }

  /** `static_cast<double>(i) * fs / n`: the frequency of bin `i`. */
  function BinFreq(i: nat, fs: real, n: nat): real
    requires n > 0
  {
    i as real * fs / n as real
  }

  /** For a positive rate, higher bins have higher frequencies. */
  lemma BinFreqAscending(i: nat, j: nat, fs: real, n: nat)
    requires n > 0 && fs > 0.0 && i < j
    ensures BinFreq(i, fs, n) < BinFreq(j, fs, n)
  {
    assert i as real * fs < j as real * fs;
  }

  /** The axis loop: `count` entries, entry `i` the frequency of bin `i`. */
  method FrequencyAxis(count: nat, fs: real, n: nat) returns (axis: seq<real>)
    requires n > 0
    ensures |axis| == count
    ensures forall i :: 0 <= i < count ==> axis[i] == BinFreq(i, fs, n)
    ensures fs > 0.0 ==> forall i, j :: 0 <= i < j < count ==> axis[i] < axis[j]
  {
    axis := [];
    var i := 0;
    while i < count
      invariant 0 <= i <= count && |axis| == i
      invariant forall k :: 0 <= k < i ==> axis[k] == BinFreq(k, fs, n)
    {
      axis := axis + [BinFreq(i, fs, n)];
      i := i + 1;
    }
    if fs > 0.0 {
      forall i, j | 0 <= i < j < count
        ensures axis[i] < axis[j]
      {
        BinFreqAscending(i, j, fs, n);
      }
    }
  }

  /** The spectrum both endpoints report: bins `0..n/2`, which span the
      frequencies from 0 to `fs/2`. */
  lemma SpectrumAxisSpan(fs: real, n: nat)
    requires n > 0 && n % 2 == 0
    ensures BinFreq(0, fs, n) == 0.0
    ensures BinFreq(n / 2, fs, n) * 2.0 == fs
  {
    assert (n / 2) as real * 2.0 == n as real;
  }

  /** What one band multiplies a bin of frequency `freq` by. */
  function BandGain(b: GainBand, freq: real): real
  {
    if InBand(b, freq) then b.gain else 1.0
  }

  /** Product of the gains of the bands whose `[low, high]` holds `freq`;
      1 when none does. */
  function GainProduct(bands: seq<GainBand>, freq: real): real
  {
    if bands == [] then 1.0
    else
      var last := bands[|bands| - 1];
      GainProduct(bands[..|bands| - 1], freq) * BandGain(last, freq)
  }

  /** A band that does not hold the frequency does not change its product. */
  lemma {:induction false} GainProductOutside(bands: seq<GainBand>, freq: real)
    requires forall k :: 0 <= k < |bands| ==> !InBand(bands[k], freq)
    ensures GainProduct(bands, freq) == 1.0
  {
    if bands != [] {
      GainProductOutside(bands[..|bands| - 1], freq);
    }
  }

  /** One more band multiplies the product by its gain exactly when it holds
      the frequency. */
  lemma GainProductStep(bands: seq<GainBand>, b: nat, freq: real)
    requires b < |bands|
    ensures GainProduct(bands[..b + 1], freq)
         == GainProduct(bands[..b], freq) * BandGain(bands[b], freq)
  {
    assert bands[..b + 1][..b] == bands[..b];
  }

  /** Whether the gain loop ever scales bin `j` of `n`: the bins `0..n/2`
      directly, and `n - i` for `0 < i < n/2` as the mirror of `i`. */
  predicate Touched(n: nat, j: nat)
  {
    j <= n / 2 || (0 < n - j < n / 2)
  }

  /** The bin whose frequency decides the gain of bin `j`. */
  function Fold(n: nat, j: nat): (i: nat)
    requires Touched(n, j)
    ensures i <= n / 2
  {
    if j <= n / 2 then j else n - j
  }

  /** The total gain bin `j` receives from all bands. */
  function BinGain(bands: seq<GainBand>, fs: real, n: nat, j: nat): real
    requires n > 0
  {
    if Touched(n, j) then GainProduct(bands, BinFreq(Fold(n, j), fs, n)) else 1.0
  }

  /** Mirror bins get exactly the gain of their partner, and a bin that no
      band holds keeps gain 1. */
  lemma BinGainMirror(bands: seq<GainBand>, fs: real, n: nat, i: nat)
    requires n > 0 && 0 < i < n / 2
    ensures BinGain(bands, fs, n, n - i) == BinGain(bands, fs, n, i)
  {
  }

  lemma BinGainUntouched(bands: seq<GainBand>, fs: real, n: nat, j: nat)
    requires n > 0 && j <= n / 2
    requires forall k :: 0 <= k < |bands| ==> !InBand(bands[k], BinFreq(j, fs, n))
    ensures BinGain(bands, fs, n, j) == 1.0
  {
    GainProductOutside(bands, BinFreq(j, fs, n));
  }

  /** The spectrum after the gain loop. */
  function Equalized(spectrum: seq<Complex>, bands: seq<GainBand>, fs: real): (r: seq<Complex>)
    requires |spectrum| > 0
    ensures |r| == |spectrum|
  {
    seq(|spectrum|, j requires 0 <= j < |spectrum| => Scale(spectrum[j], BinGain(bands, fs, |spectrum|, j)))
  }

  /** The gain each bin has after bands `[0, b)` and, of band `b`, the
      bins whose folded index is below `i`. */
  function PartialGain(bands: seq<GainBand>, fs: real, n: nat, b: nat, i: nat, j: nat): real
    requires n > 0 && b < |bands|
  {
    if Touched(n, j) && Fold(n, j) < i then BinGain(bands[..b + 1], fs, n, j) else BinGain(bands[..b], fs, n, j)
  }

  /** One step of the inner loop on one bin: either it is the bin `i` (or its
      mirror) and band `b` is applied to it, or it keeps its gain. */
  lemma PartialGainStep(bands: seq<GainBand>, fs: real, n: nat, b: nat, i: nat, j: nat)
    requires n > 0 && b < |bands| && i <= n / 2 && j < n
    ensures Touched(n, j) && Fold(n, j) == i ==>
      PartialGain(bands, fs, n, b, i + 1, j)
      == PartialGain(bands, fs, n, b, i, j) * BandGain(bands[b], BinFreq(i, fs, n))
    ensures !(Touched(n, j) && Fold(n, j) == i) ==>
      PartialGain(bands, fs, n, b, i + 1, j) == PartialGain(bands, fs, n, b, i, j)
  {
    if Touched(n, j) {
      GainProductStep(bands, b, BinFreq(Fold(n, j), fs, n));
    }
  }

  /** `data[j] == Scale(orig[j], PartialGain(...))` for every bin. */
  ghost predicate Progress(data: seq<Complex>, orig: seq<Complex>, bands: seq<GainBand>, fs: real, b: nat, i: nat)
    requires |data| == |orig| > 0 && b < |bands|
  {
    forall j :: 0 <= j < |data| ==> data[j] == Scale(orig[j], PartialGain(bands, fs, |data|, b, i, j))
  }

  /** The gain loops of `/applyEqualizer`: for each band, for each bin
      `i <= n/2` whose frequency the band holds, scale bin `i` and, for
      `0 < i < n/2`, its mirror `n - i`, in place. */
  method ApplyBandGains(data: array<Complex>, bands: seq<GainBand>, fs: real)
    requires data.Length > 0
    modifies data
    ensures data[..] == Equalized(old(data[..]), bands, fs)
  {
    var n := data.Length;
    ghost var orig := data[..];
    assert forall j :: 0 <= j < n ==> data[j] == Scale(orig[j], BinGain(bands[..0], fs, n, j)) by {
      forall j | 0 <= j < n ensures data[j] == Scale(orig[j], BinGain(bands[..0], fs, n, j)) {
        ScaleOne(orig[j]);
      }
    }
    var b := 0;
    while b < |bands|
      invariant 0 <= b <= |bands|
      invariant forall j :: 0 <= j < n ==> data[j] == Scale(orig[j], BinGain(bands[..b], fs, n, j))
    {
      var band := bands[b];
      var i := 0;
      while i <= n / 2
        invariant 0 <= i <= n / 2 + 1
        invariant Progress(data[..], orig, bands, fs, b, i)
      {
        var freq := BinFreq(i, fs, n);
        ghost var before := data[..];
        if band.low <= freq && freq <= band.high {
          data[i] := Scale(data[i], band.gain);
          assert data[..] == before[i := Scale(before[i], band.gain)];
          if i > 0 && i < n / 2 {
            ghost var mid := data[..];
            data[n - i] := Scale(data[n - i], band.gain);
            assert data[..] == mid[n - i := Scale(before[n - i], band.gain)];
          }
        }
        BandStep(before, data[..], orig, bands, fs, b, i);
        i := i + 1;
      }
      assert forall j :: 0 <= j < n ==> data[j] == Scale(orig[j], BinGain(bands[..b + 1], fs, n, j)) by {
        assert Progress(data[..], orig, bands, fs, b, i);
        forall j | 0 <= j < n ensures data[j] == Scale(orig[j], BinGain(bands[..b + 1], fs, n, j)) {
          assert data[..][j] == data[j];
        }
      }
      b := b + 1;
    }
    assert bands[..|bands|] == bands;
  }

  /** What one inner iteration does to the whole buffer. */
  lemma BandStep(before: seq<Complex>, after: seq<Complex>, orig: seq<Complex>, bands: seq<GainBand>, fs: real, b: nat, i: nat)
    requires |before| == |after| == |orig| > 0 && b < |bands| && i <= |before| / 2
    requires Progress(before, orig, bands, fs, b, i)
    requires var n := |before|; var g := bands[b].gain;
      if !InBand(bands[b], BinFreq(i, fs, n)) then after == before
      else if 0 < i < n / 2 then after == before[i := Scale(before[i], g)][n - i := Scale(before[n - i], g)]
      else after == before[i := Scale(before[i], g)]
    ensures Progress(after, orig, bands, fs, b, i + 1)
  {
    var n := |before|;
    var g := bands[b].gain;
    var hit := InBand(bands[b], BinFreq(i, fs, n));
    forall j | 0 <= j < n
      ensures after[j] == Scale(orig[j], PartialGain(bands, fs, n, b, i + 1, j))
    {
      var scaled := hit && (j == i || (0 < i < n / 2 && j == n - i));
      assert scaled ==> after[j] == Scale(before[j], g);
      assert !scaled ==> after[j] == before[j];
      BinStep(before[j], after[j], orig[j], bands, fs, n, b, i, j);
    }
  }

  /** What one inner iteration does to bin `j`. */
  lemma BinStep(before: Complex, after: Complex, orig: Complex, bands: seq<GainBand>, fs: real, n: nat, b: nat, i: nat, j: nat)
    requires 0 < n && b < |bands| && i <= n / 2 && j < n
    requires before == Scale(orig, PartialGain(bands, fs, n, b, i, j))
    requires var scaled := InBand(bands[b], BinFreq(i, fs, n)) && (j == i || (0 < i < n / 2 && j == n - i));
      (scaled ==> after == Scale(before, bands[b].gain)) && (!scaled ==> after == before)
    ensures after == Scale(orig, PartialGain(bands, fs, n, b, i + 1, j))
  {
    PartialGainStep(bands, fs, n, b, i, j);
    var p := PartialGain(bands, fs, n, b, i, j);
    var hit := InBand(bands[b], BinFreq(i, fs, n));
    if Touched(n, j) && Fold(n, j) == i {
      assert j == i || (0 < i < n / 2 && j == n - i);
      if hit {
        ScaleScale(orig, p, bands[b].gain);
      } else {
        assert p * 1.0 == p;
      }
    } else {
      assert j != i;
      assert !(0 < i < n / 2 && j == n - i);
    }
  }

  /** The magnitude loop: entries `0..count-1` of a transformed buffer. */
  method Magnitudes(spectrum: seq<Complex>, count: nat, magnitude: Complex -> real) returns (m: seq<real>)
    requires count <= |spectrum|
    ensures |m| == count
    ensures forall k :: 0 <= k < count ==> m[k] == magnitude(spectrum[k])
  {
    m := [];
    var k := 0;
    while k < count
      invariant 0 <= k <= count && |m| == k
      invariant forall j :: 0 <= j < k ==> m[j] == magnitude(spectrum[j])
    {
      m := m + [magnitude(spectrum[k])];
      k := k + 1;
    }
  }

  /** The forward transform of `/applyEqualizer` and `/calculatefft` and its
      inverse are parameters: length-preserving maps on coefficient buffers. */
  ghost predicate LengthPreserving(t: seq<Complex> -> seq<Complex>)
  {
    forall d :: |t(d)| == |d|
  }

  /** `/calculatefft`: pad to a power of two, transform, and report bins
      `0..n/2` with their frequencies and magnitudes. */
  method CalculateFft(samples: seq<real>, fs: real, forward: seq<Complex> -> seq<Complex>, magnitude: Complex -> real)
    returns (frequencies: seq<real>, magnitudes: seq<real>)
    requires LengthPreserving(forward)
    ensures var n := NextPow2(|samples|);
      && |frequencies| == |magnitudes| == n / 2 + 1
      && (forall i :: 0 <= i < |frequencies| ==> frequencies[i] == BinFreq(i, fs, n))
      && (forall i :: 0 <= i < |magnitudes| ==> magnitudes[i] == magnitude(forward(Padded(samples, n))[i]))
  {
    var n := NextPowerOfTwo(|samples|);
    NextPow2Is(|samples|, n);
    var data := ZeroPad(samples, n);
    var spectrum := forward(data[..]);
    frequencies := FrequencyAxis(n / 2 + 1, fs, n);
    magnitudes := Magnitudes(spectrum, n / 2 + 1, magnitude);
  }

  /** `/applyEqualizer`: pad, transform, apply the band gains in place,
      report the scaled spectrum's bins `0..n/2`, transform back, and keep
      the real parts of the first `original_size` coefficients. */
  method ApplyEqualizer(samples: seq<real>, fs: real, bands: seq<GainBand>,
                        forward: seq<Complex> -> seq<Complex>, inverse: seq<Complex> -> seq<Complex>,
                        magnitude: Complex -> real)
    returns (output: seq<real>, frequencies: seq<real>, magnitudes: seq<real>)
    requires LengthPreserving(forward) && LengthPreserving(inverse)
    ensures |output| == |samples|
    ensures |frequencies| == |magnitudes| >= 1
    ensures var n := NextPow2(|samples|); var eq := Equalized(forward(Padded(samples, n)), bands, fs);
      && |frequencies| == n / 2 + 1
      && (forall i :: 0 <= i < |frequencies| ==> frequencies[i] == BinFreq(i, fs, n))
      && (forall i :: 0 <= i < |magnitudes| ==> magnitudes[i] == magnitude(eq[i]))
      && (forall i :: 0 <= i < |output| ==> output[i] == inverse(eq)[i].re)
  {
    var n := NextPowerOfTwo(|samples|);
    NextPow2Is(|samples|, n);
    var data := ZeroPad(samples, n);
    var spectrum := forward(data[..]);
    forall i | 0 <= i < n {
      data[i] := spectrum[i];
    }
    assert data[..] == spectrum;
    ApplyBandGains(data, bands, fs);
    ghost var eq := Equalized(spectrum, bands, fs);
    assert data[..] == eq;
    frequencies := FrequencyAxis(n / 2 + 1, fs, n);
    magnitudes := Magnitudes(data[..], n / 2 + 1, magnitude);
    var back := inverse(data[..]);
    assert back == inverse(eq);
    output := [];
    var i := 0;
    while i < |samples|
      invariant 0 <= i <= |samples| && |output| == i
      invariant forall k :: 0 <= k < i ==> output[k] == back[k].re
    {
      output := output + [back[i].re];
      i := i + 1;
    }
  }

  /** The value `next_power_of_2` returns, as a function. */
  function NextPow2(n: nat): (p: nat)
    ensures IsPowerOfTwo(p) && p >= n && (p == 1 || p / 2 < n)
    decreases n
  {
    if n <= 1 then 1
    else
      var h := NextPow2((n + 1) / 2);
      assert h * 2 >= n;
      assert h == 1 || h / 2 < (n + 1) / 2;
      h * 2
  }

  /** The loop and the function agree: there is one least power of two. */
  lemma NextPow2Is(n: nat, p: nat)
    requires IsPowerOfTwo(p) && p >= n && (p == 1 || p / 2 < n)
    ensures p == NextPow2(n)
  {
    var q := NextPow2(n);
    NextPowerOfTwoLeast(n, p, q);
    NextPowerOfTwoLeast(n, q, p);
  }

  /** The STFT of the spectrogram endpoint: 2048-sample windows, hop 512. */
  const WindowSize: nat := 2048
  const HopSize: nat := WindowSize / 4

  /** The FFT buffer of the frame starting at `start`: windowed samples while
      `start + i` is inside the signal, zeros after that. */
  function FrameInput(samples: seq<real>, window: seq<real>, start: nat): (d: seq<Complex>)
    ensures |d| == |window|
    ensures forall i :: 0 <= i < |window| && start + i < |samples| ==> d[i] == Complex(samples[start + i] * window[i], 0.0)
    ensures forall i :: 0 <= i < |window| && start + i >= |samples| ==> d[i] == Zero
  {
    seq(|window|, i requires 0 <= i < |window| =>
      if start + i < |samples| then Complex(samples[start + i] * window[i], 0.0) else Zero)
  }

  /** The fill loop of one frame, into the buffer reused across frames:
      `samples[start + i]` is read only when `i < remain`. */
  method FillFrame(fftData: array<Complex>, samples: seq<real>, window: seq<real>, start: nat)
    requires fftData.Length == |window| && start < |samples|
    modifies fftData
    ensures fftData[..] == FrameInput(samples, window, start)
  {
    var remain := |samples| - start;
    var i := 0;
    while i < fftData.Length
      invariant 0 <= i <= fftData.Length
      invariant forall k :: 0 <= k < i ==> fftData[k] == FrameInput(samples, window, start)[k]
    {
      if i < remain {
        fftData[i] := Complex(samples[start + i] * window[i], 0.0);
      } else {
        fftData[i] := Zero;
      }
      i := i + 1;
    }
  }

  /** The magnitude frame of the frame starting at `start`: bins `0..W/2`. */
  function MagFrame(samples: seq<real>, window: seq<real>, start: nat,
                    forward: seq<Complex> -> seq<Complex>, magnitude: Complex -> real): (m: seq<real>)
    requires |window| > 0 && LengthPreserving(forward)
    ensures |m| == |window| / 2 + 1
    ensures forall k :: 0 <= k < |m| ==> m[k] == magnitude(forward(FrameInput(samples, window, start))[k])
  {
    var spectrum := forward(FrameInput(samples, window, start));
    seq(|window| / 2 + 1, k requires 0 <= k < |window| / 2 + 1 => magnitude(spectrum[k]))
  }

  /** `stft`: frames start at 0, hop, 2*hop, ... while the start is inside
      the signal, so the last frame may be partial and zero-filled; there are
      `ceil(len / hop)` frames, none for an empty signal. */
  method Stft(samples: seq<real>, window: seq<real>, hopSize: nat,
              forward: seq<Complex> -> seq<Complex>, magnitude: Complex -> real)
    returns (frames: seq<seq<real>>)
    requires hopSize > 0 && |window| > 0 && LengthPreserving(forward)
    ensures |frames| == CeilDiv(|samples|, hopSize)
    ensures forall t :: 0 <= t < |frames| ==>
      |frames[t]| == |window| / 2 + 1 && frames[t] == MagFrame(samples, window, t * hopSize, forward, magnitude)
  {
    var nfft := |window|;
    var fftData := new Complex[nfft](_ => Zero);
    frames := [];
    var start := 0;
    while start < |samples|
      invariant start == |frames| * hopSize
      invariant |frames| > 0 ==> (|frames| - 1) * hopSize < |samples|
      invariant forall t :: 0 <= t < |frames| ==>
        |frames[t]| == nfft / 2 + 1 && frames[t] == MagFrame(samples, window, t * hopSize, forward, magnitude)
      decreases |samples| - start
    {
      FillFrame(fftData, samples, window, start);
      var spectrum := forward(fftData[..]);
      var magFrame := Magnitudes(spectrum, nfft / 2 + 1, magnitude);
      assert magFrame == MagFrame(samples, window, start, forward, magnitude);
      frames := frames + [magFrame];
      start := start + hopSize;
    }
    CeilDivUnique(|samples|, hopSize, |frames|);
  }

  /** With a hop no longer than the window, every sample lies in some frame. */
  lemma StftCoversEverySample(len: nat, hopSize: nat, windowSize: nat, s: nat)
    requires 0 < hopSize <= windowSize && s < len
    ensures var t := s / hopSize;
      t < CeilDiv(len, hopSize) && t * hopSize <= s < t * hopSize + windowSize
  {
    var t := s / hopSize;
    var c := CeilDiv(len, hopSize);
    assert t * hopSize <= s < t * hopSize + hopSize;
    if t >= c {
      MulLeftMono(c, t, hopSize);
    }
  }

  /** `t * hopSize / fs`: the start time of frame `t`. */
  function FrameTime(t: nat, hopSize: nat, fs: real): real
    requires fs != 0.0
  {
    (t * hopSize) as real / fs
  }

  /** The time-axis loop. */
  method TimeAxis(count: nat, hopSize: nat, fs: real) returns (axis: seq<real>)
    requires fs != 0.0
    ensures |axis| == count
    ensures forall t :: 0 <= t < count ==> axis[t] == FrameTime(t, hopSize, fs)
    ensures fs > 0.0 && hopSize > 0 ==> forall t, u :: 0 <= t < u < count ==> axis[t] < axis[u]
  {
    axis := [];
    var t := 0;
    while t < count
      invariant 0 <= t <= count && |axis| == t
      invariant forall k :: 0 <= k < t ==> axis[k] == FrameTime(k, hopSize, fs)
    {
      axis := axis + [FrameTime(t, hopSize, fs)];
      t := t + 1;
    }
    if fs > 0.0 && hopSize > 0 {
      forall t, u | 0 <= t < u < count
        ensures axis[t] < axis[u]
      {
        MulLeftMono(t, u, hopSize);
        assert t * hopSize < u * hopSize;
        assert (t * hopSize) as real / fs < (u * hopSize) as real / fs;
      }
    }
  }

  /** A `[time][freq]` grid of `bins` columns turned into `[freq][time]`. */
  function Transposed(frames: seq<seq<real>>, bins: nat): (z: seq<seq<real>>)
    requires forall t :: 0 <= t < |frames| ==> |frames[t]| == bins
    ensures |z| == bins
    ensures forall f :: 0 <= f < bins ==> |z[f]| == |frames|
    ensures forall f, t :: 0 <= f < bins && 0 <= t < |frames| ==> z[f][t] == frames[t][f]
  {
    seq(bins, f requires 0 <= f < bins => seq(|frames|, t requires 0 <= t < |frames| => frames[t][f]))
  }

  /** Transposing back gives the frames again. */
  lemma TransposedTwice(frames: seq<seq<real>>, bins: nat)
    requires forall t :: 0 <= t < |frames| ==> |frames[t]| == bins
    requires bins > 0
    ensures Transposed(Transposed(frames, bins), |frames|) == frames
  {
    var z := Transposed(frames, bins);
    var back := Transposed(z, |frames|);
    forall t | 0 <= t < |frames|
      ensures back[t] == frames[t]
    {
      assert |back[t]| == bins == |frames[t]|;
    }
  }

  /** The transpose loops: `z[f][t] = frames[t][f]` for every frame `t` and
      bin `f < bins`, into a `bins` by `|frames|` grid. */
  method Transpose(frames: seq<seq<real>>, bins: nat) returns (z: seq<seq<real>>)
    requires forall t :: 0 <= t < |frames| ==> |frames[t]| == bins
    ensures z == Transposed(frames, bins)
  {
    var numFrames := |frames|;
    z := seq(bins, _ => seq(numFrames, _ => 0.0));
    var t := 0;
    while t < numFrames
      invariant 0 <= t <= numFrames && |z| == bins
      invariant forall f :: 0 <= f < bins ==> |z[f]| == numFrames
      invariant forall f, u :: 0 <= f < bins && 0 <= u < t ==> z[f][u] == frames[u][f]
    {
      var f := 0;
      while f < bins
        invariant 0 <= f <= bins && |z| == bins
        invariant forall g :: 0 <= g < bins ==> |z[g]| == numFrames
        invariant forall g, u :: 0 <= g < bins && 0 <= u < t ==> z[g][u] == frames[u][g]
        invariant forall g :: 0 <= g < f ==> z[g][t] == frames[t][g]
      {
        z := z[f := z[f][t := frames[t][f]]];
        f := f + 1;
      }
      t := t + 1;
    }
    ghost var spec := Transposed(frames, bins);
    assert forall f :: 0 <= f < bins ==> z[f] == spec[f];
  }

  /** `/spectrogram`: the STFT frames transposed to `[freq][time]`, with the
      frequency axis `k * fs / 2048` and the time axis `t * 512 / fs`. */
  method Spectrogram(samples: seq<real>, fs: real, window: seq<real>,
                     forward: seq<Complex> -> seq<Complex>, magnitude: Complex -> real)
    returns (x: seq<real>, y: seq<real>, z: seq<seq<real>>)
    requires fs != 0.0 && |window| == WindowSize && LengthPreserving(forward)
    ensures |y| == WindowSize / 2 + 1 && |x| == CeilDiv(|samples|, HopSize) && |z| == |y|
    ensures forall k :: 0 <= k < |y| ==> y[k] == BinFreq(k, fs, WindowSize)
    ensures forall t :: 0 <= t < |x| ==> x[t] == FrameTime(t, HopSize, fs)
    ensures forall f :: 0 <= f < |z| ==> |z[f]| == |x|
    ensures forall f, t :: 0 <= f < |z| && 0 <= t < |x| ==>
      z[f][t] == MagFrame(samples, window, t * HopSize, forward, magnitude)[f]
  {
    var frames := Stft(samples, window, HopSize, forward, magnitude);
    var numFreqBins := WindowSize / 2 + 1;
    y := FrequencyAxis(numFreqBins, fs, WindowSize);
    x := TimeAxis(|frames|, HopSize, fs);
    z := Transpose(frames, numFreqBins);
  }
}

=== FILE: server_py.dfy ===
/** The index logic of the Python server: its power-of-two helper, numpy's
    `fftfreq` axis, the masked band gains of `/applyEqualizer`, the STFT
    framing and transpose of `/spectrogram`, the int16 quantisation and URL
    of `/saveEQ`, and how the two AI endpoints pair sliders with separated
    sources. The FFTs, the Hann window and the separation models are
    parameters or inputs. */
module ServerPy {
  import opened Common
  import opened FftServer
  import Wav

  // ---------------------------------------------------------------------
  // next_power_of_2

  /** `2^k`. */
  function Pow2(k: nat): (p: nat)
    ensures p >= 1 && IsPowerOfTwo(p)
    ensures k >= 1 ==> p % 2 == 0
  {
    if k == 0 then 1 else 2 * Pow2(k - 1)
  }

  /** Python's `int.bit_length`: the number of binary digits of `m`. */
  function BitLength(m: nat): nat
  {
    if m == 0 then 0 else 1 + BitLength(m / 2)
  }

  /** `2^bit_length(m)` is the least power of two above `m`. */
  lemma {:induction false} BitLengthBounds(m: nat)
    ensures Pow2(BitLength(m)) > m
    ensures m >= 1 ==> Pow2(BitLength(m)) <= 2 * m
  {
    if m > 0 {
      BitLengthBounds(m / 2);
    }
  }

  /** `1 << (n - 1).bit_length()`; `bit_length` ignores the sign, so `n = 0`
      reads the bit length of `-1`, which is 1. */
  function PyNextPowerOfTwo(n: nat): (p: nat)
    ensures IsPowerOfTwo(p) && p >= n && p >= 1
    ensures n >= 1 ==> p == NextPow2(n)
    ensures n == 0 ==> p == 2
  {
    var m := n - 1;
    var p := Pow2(BitLength(if m < 0 then -m else m));
    assert n >= 1 ==> p == NextPow2(n) by {
      if n >= 1 {
        BitLengthBounds(n - 1);
        NextPow2Is(n, p);
      }
    }
    p
  }

  /** The two helpers agree except at `n = 0`, where the Python one pads an
      empty signal to two zeros and the C++ one to one. */
  lemma NextPowerOfTwoServersCompared(n: nat)
    ensures n >= 1 <==> PyNextPowerOfTwo(n) == NextPow2(n)
  {
    if n == 0 {
      assert NextPow2(0) == 1;
    }
  }

  // ---------------------------------------------------------------------
  // numpy.fft.fftfreq

  /** Entry `i` of `fftfreq(n, 1/fs)`: bins `0..(n-1)//2` carry `i * fs/n`
      and the rest the negative frequencies `(i - n) * fs/n`. */
  function FftFreq(i: nat, n: nat, fs: real): (f: real)
    requires n > 0
    ensures i <= (n - 1) / 2 ==> f == BinFreq(i, fs, n)
    ensures (n - 1) / 2 < i < n ==> f == -BinFreq(n - i, fs, n)
  {
    var k := if i <= (n - 1) / 2 then i else i - n;
    assert k < 0 ==> k as real * fs == -((-k) as real * fs);
    k as real * fs / n as real
  }

  /** The whole `fftfreq(n, 1/fs)` array. */
  function FftFreqs(n: nat, fs: real): (f: seq<real>)
    requires n > 0
    ensures |f| == n && forall i :: 0 <= i < n ==> f[i] == FftFreq(i, n, fs)
  {
    seq(n, i requires 0 <= i < n => FftFreq(i, n, fs))
  }

  /** `fftfreq(n, 1/fs)[: n//2 + 1]`, the axis `/calculatefft` and
      `/applyEqualizer` report. */
  function VisibleAxis(n: nat, fs: real): (f: seq<real>)
    requires n > 0
    ensures |f| == n / 2 + 1 && f == FftFreqs(n, fs)[..n / 2 + 1]
  {
    FftFreqs(n, fs)[..n / 2 + 1]
  }

  /** For even `n` the reported axis does not end at `+fs/2` but at `-fs/2`:
      its last entry is numpy's negative Nyquist frequency, below every
      other entry when `fs > 0`. */
  lemma VisibleAxisEndsNegative(n: nat, fs: real)
    requires n >= 2 && n % 2 == 0 && fs > 0.0
    ensures var axis := VisibleAxis(n, fs);
      axis[n / 2] * 2.0 == -fs && forall i :: 0 <= i < n / 2 ==> axis[n / 2] < axis[i]
  {
    var axis := VisibleAxis(n, fs);
    SpectrumAxisSpan(fs, n);
    assert axis[n / 2] == -BinFreq(n / 2, fs, n);
    forall i | 0 <= i < n / 2
      ensures axis[n / 2] < axis[i]
    {
      assert axis[i] == BinFreq(i, fs, n);
      assert 0.0 <= i as real * fs;
    }
  }

  /** The AI endpoints keep only `fftfreq(N, 1/fs)[: N//2]`, which are the
      non-negative frequencies `i * fs/N` of the C++ axis. */
  lemma HalfAxisNonNegative(nn: nat, fs: real, i: nat)
    requires nn > 0 && i < nn / 2
    ensures FftFreq(i, nn, fs) == BinFreq(i, fs, nn)
  {
  }

  // ---------------------------------------------------------------------
  // /applyEqualizer: masked gains

  /** `(freqs >= low) & (freqs <= high)`. */
  predicate PositiveMask(b: GainBand, f: real)
  {
    f >= b.low && f <= b.high
  }

  /** `(freqs <= -low) & (freqs >= -high)`: the band mirrored to negative
      frequencies, that is the bins whose negated frequency is in the band. */
  predicate NegativeMask(b: GainBand, f: real)
    ensures NegativeMask(b, f) <==> InBand(b, -f)
  {
    f <= -b.low && f >= -b.high
  }

  /** The gain a bin of frequency `f` ends up with after all bands: the
      positive masks apply the gain of every band holding `f`, the negative
      masks that of every band holding `-f`. */
  function PyGain(bands: seq<GainBand>, f: real): real
  {
    GainProduct(bands, f) * GainProduct(bands, -f)
  }

  /** The DC bin matches both masks of every band with `low <= 0 <= high`,
      so its gain is the square of the C++ one. */
  lemma DcGainSquared(bands: seq<GainBand>, n: nat, fs: real)
    requires n > 0
    ensures PyGain(bands, FftFreq(0, n, fs)) == BinGain(bands, fs, n, 0) * BinGain(bands, fs, n, 0)
  {
    assert FftFreq(0, n, fs) == 0.0 && -0.0 == 0.0;
  }

  /** One band from 0 Hz with gain 2 scales the DC bin by 4 in the Python
      server and by 2 in the C++ servers. */
  lemma DcGainExample(n: nat, fs: real)
    requires n > 0
    ensures PyGain([GainBand(0.0, 250.0, 2.0)], FftFreq(0, n, fs)) == 4.0
    ensures BinGain([GainBand(0.0, 250.0, 2.0)], fs, n, 0) == 2.0
  {
    var bands := [GainBand(0.0, 250.0, 2.0)];
    assert bands[..0] == [];
    DcGainSquared(bands, n, fs);
    assert BinGain(bands, fs, n, 0) == GainProduct(bands, 0.0);
    assert GainProduct(bands, 0.0) == GainProduct([], 0.0) * 2.0;
  }

  /** When every band starts above 0 Hz the masks never overlap, and for a
      power-of-two length every bin gets exactly the C++ gain, its mirror
      included. */
  lemma PyGainMatchesAboveDc(bands: seq<GainBand>, n: nat, fs: real, j: nat)
    requires IsPowerOfTwo(n) && fs > 0.0 && j < n
    requires forall k :: 0 <= k < |bands| ==> bands[k].low > 0.0
    ensures PyGain(bands, FftFreq(j, n, fs)) == BinGain(bands, fs, n, j)
  {
    var f := FftFreq(j, n, fs);
    assert n == 1 || n % 2 == 0;
    if j <= (n - 1) / 2 {
      assert 0.0 <= j as real * fs;
      assert f >= 0.0;
      GainProductOutside(bands, -f);
      assert BinGain(bands, fs, n, j) == GainProduct(bands, f);
    } else {
      assert 0.0 < (n - j) as real * fs;
      assert f < 0.0;
      GainProductOutside(bands, f);
      assert Touched(n, j) && Fold(n, j) == n - j;
      assert BinGain(bands, fs, n, j) == GainProduct(bands, -f);
    }
  }

  /** The spectrum after the masked loops. */
  function PyEqualized(spectrum: seq<Complex>, freqs: seq<real>, bands: seq<GainBand>): (r: seq<Complex>)
    requires |freqs| == |spectrum|
    ensures |r| == |spectrum|
    ensures forall j :: 0 <= j < |r| ==> r[j] == Scale(spectrum[j], PyGain(bands, freqs[j]))
  {
    seq(|spectrum|, j requires 0 <= j < |spectrum| => Scale(spectrum[j], PyGain(bands, freqs[j])))
  }

  /** `fft_data[mask] *= value`: the masked bins scaled, the rest kept. */
  method ScaleMasked(data: array<Complex>, mask: seq<bool>, gain: real)
    requires data.Length == |mask|
    modifies data
    ensures forall j :: 0 <= j < data.Length ==> data[j] == Scale(old(data[j]), if mask[j] then gain else 1.0)
  {
    var j := 0;
    while j < data.Length
      invariant 0 <= j <= data.Length
      invariant forall k :: 0 <= k < j ==> data[k] == Scale(old(data[k]), if mask[k] then gain else 1.0)
      invariant forall k :: j <= k < data.Length ==> data[k] == old(data[k])
    {
      if mask[j] {
        data[j] := Scale(data[j], gain);
      } else {
        ScaleOne(data[j]);
      }
      j := j + 1;
    }
  }

  /** One band: `fft_data[mask] *= value`, then `fft_data[neg_mask] *= value`. */
  method ApplyBandMasks(data: array<Complex>, freqs: seq<real>, b: GainBand)
    requires data.Length == |freqs|
    modifies data
    ensures forall j :: 0 <= j < data.Length ==>
      data[j] == Scale(Scale(old(data[j]), BandGain(b, freqs[j])), BandGain(b, -freqs[j]))
  {
    var mask := seq(|freqs|, j requires 0 <= j < |freqs| => PositiveMask(b, freqs[j]));
    ScaleMasked(data, mask, b.gain);
    var negMask := seq(|freqs|, j requires 0 <= j < |freqs| => NegativeMask(b, freqs[j]));
    ScaleMasked(data, negMask, b.gain);
  }

  /** Scaling by `p`, `q`, `x`, `y` in turn is scaling by `g = p x` and
      `h = q y`. */
  lemma ScaleFour(c: Complex, p: real, q: real, x: real, y: real, g: real, h: real)
    requires g == p * x && h == q * y
    ensures Scale(Scale(Scale(Scale(c, p), q), x), y) == Scale(Scale(c, g), h)
  {
    assert c.re * p * q * x * y == c.re * (p * x) * (q * y);
    assert c.im * p * q * x * y == c.im * (p * x) * (q * y);
  }

  /** One band's two masks applied to a bin that holds the gain products of
      the bands before it leave the products of the bands up to it. */
  lemma MaskStep(orig: Complex, bands: seq<GainBand>, b: nat, f: real)
    requires b < |bands|
    ensures Scale(Scale(Scale(Scale(orig, GainProduct(bands[..b], f)), GainProduct(bands[..b], -f)),
                        BandGain(bands[b], f)), BandGain(bands[b], -f))
         == Scale(Scale(orig, GainProduct(bands[..b + 1], f)), GainProduct(bands[..b + 1], -f))
  {
    GainProductStep(bands, b, f);
    GainProductStep(bands, b, -f);
    ScaleFour(orig, GainProduct(bands[..b], f), GainProduct(bands[..b], -f),
              BandGain(bands[b], f), BandGain(bands[b], -f),
              GainProduct(bands[..b + 1], f), GainProduct(bands[..b + 1], -f));
  }

  /** Scaling by the two gain products is scaling by the Python gain. */
  lemma PyGainScale(c: Complex, bands: seq<GainBand>, f: real)
    ensures Scale(Scale(c, GainProduct(bands, f)), GainProduct(bands, -f)) == Scale(c, PyGain(bands, f))
  {
    ScaleTwice(c, GainProduct(bands, f), GainProduct(bands, -f), PyGain(bands, f));
  }

  lemma ScaleTwice(c: Complex, p: real, q: real, g: real)
    requires g == p * q
    ensures Scale(Scale(c, p), q) == Scale(c, g)
  {
    ScaleScale(c, p, q);
  }

  /** The band loop of `/applyEqualizer`. */
  method PyApplyBandGains(data: array<Complex>, freqs: seq<real>, bands: seq<GainBand>)
    requires data.Length == |freqs|
    modifies data
    ensures data[..] == PyEqualized(old(data[..]), freqs, bands)
  {
    ghost var orig := data[..];
    var b := 0;
    while b < |bands|
      invariant 0 <= b <= |bands|
      invariant forall j :: 0 <= j < data.Length ==>
        data[j] == Scale(Scale(orig[j], GainProduct(bands[..b], freqs[j])), GainProduct(bands[..b], -freqs[j]))
    {
      ghost var before := data[..];
      ApplyBandMasks(data, freqs, bands[b]);
      forall j | 0 <= j < data.Length
        ensures data[j] == Scale(Scale(orig[j], GainProduct(bands[..b + 1], freqs[j])), GainProduct(bands[..b + 1], -freqs[j]))
      {
        MaskStep(orig[j], bands, b, freqs[j]);
      }
      b := b + 1;
    }
    assert bands[..|bands|] == bands;
    forall j | 0 <= j < data.Length
      ensures data[j] == Scale(orig[j], PyGain(bands, freqs[j]))
    {
      PyGainScale(orig[j], bands, freqs[j]);
    }
  }

  /** `/applyEqualizer`: pad to `next_power_of_2`, transform, apply the
      masks over the full `fftfreq` axis, report the first `n//2 + 1`
      entries, transform back and keep the real parts of the first
      `n_original` values. `1/fs` raises for `fs = 0`. */
  method PyApplyEqualizer(samples: seq<real>, fs: real, bands: seq<GainBand>,
                          forward: seq<Complex> -> seq<Complex>, inverse: seq<Complex> -> seq<Complex>,
                          magnitude: Complex -> real)
    returns (output: seq<real>, frequencies: seq<real>, magnitudes: seq<real>)
    requires fs != 0.0 && LengthPreserving(forward) && LengthPreserving(inverse)
    ensures |output| == |samples|
    ensures var n := PyNextPowerOfTwo(|samples|);
      var eq := PyEqualized(forward(Padded(samples, n)), FftFreqs(n, fs), bands);
      && frequencies == VisibleAxis(n, fs)
      && |magnitudes| == n / 2 + 1
      && (forall i :: 0 <= i < |magnitudes| ==> magnitudes[i] == magnitude(eq[i]))
      && (forall i :: 0 <= i < |output| ==> output[i] == inverse(eq)[i].re)
  {
    var n := PyNextPowerOfTwo(|samples|);
    var data := ZeroPad(samples, n);
    var spectrum := forward(data[..]);
    forall i | 0 <= i < n {
      data[i] := spectrum[i];
    }
    assert data[..] == spectrum;
    var freqs := FftFreqs(n, fs);
    PyApplyBandGains(data, freqs, bands);
    frequencies := freqs[..n / 2 + 1];
    magnitudes := Magnitudes(data[..], n / 2 + 1, magnitude);
    var back := inverse(data[..]);
    output := seq(|samples|, i requires 0 <= i < |samples| => back[i].re);
  }

  // ---------------------------------------------------------------------
  // /spectrogram

  /** Frames the `while pos + W <= len` loop takes: only whole windows. */
  function PyFrameCount(len: nat, windowSize: nat, hopSize: nat): nat
    requires hopSize > 0
  {
    if len >= windowSize then (len - windowSize) / hopSize + 1 else 0
  }

  /** The loop keeps no partial frame: frame `t` of the Python count lies
      wholly inside the signal, and one more would not. */
  lemma PyFramesWhole(len: nat, windowSize: nat, hopSize: nat)
    requires hopSize > 0
    ensures var c := PyFrameCount(len, windowSize, hopSize);
      (c > 0 ==> (c - 1) * hopSize + windowSize <= len) && c * hopSize + windowSize > len
  {
    var c := PyFrameCount(len, windowSize, hopSize);
    if len >= windowSize {
      var q := (len - windowSize) / hopSize;
      assert q * hopSize <= len - windowSize < q * hopSize + hopSize;
      assert c * hopSize == q * hopSize + hopSize;
    }
  }

  /** The C++ `stft` keeps partial frames and so has more of them: none
      fewer in general, 3 or 4 more with the endpoints' 4:1 window/hop ratio,
      and at least one where the Python server has none. */
  lemma FrameCountsCompared(len: nat, hopSize: nat)
    requires hopSize > 0
    ensures PyFrameCount(len, 4 * hopSize, hopSize) <= CeilDiv(len, hopSize)
    ensures len >= 4 * hopSize ==>
      CeilDiv(len, hopSize) - PyFrameCount(len, 4 * hopSize, hopSize) in {3, 4}
    ensures 0 < len < 4 * hopSize ==>
      PyFrameCount(len, 4 * hopSize, hopSize) == 0 < CeilDiv(len, hopSize)
  {
    var c := CeilDiv(len, hopSize);
    if len >= 4 * hopSize {
      var m := len - 4 * hopSize;
      var q := m / hopSize;
      assert q * hopSize <= m < q * hopSize + hopSize;
      var p := q + 1;
      assert (p + 3) * hopSize == q * hopSize + 4 * hopSize;
      assert (p + 2) * hopSize == q * hopSize + 3 * hopSize;
      if c < p + 3 {
        MulLeftMono(c, p + 2, hopSize);
      }
      assert (p + 4) * hopSize == q * hopSize + hopSize + 4 * hopSize;
      if c > p + 4 {
        MulLeftMono(p + 4, c - 1, hopSize);
      }
    }
  }

  /** A whole frame reads no zero padding: its buffer is the windowed slice
      `samples[pos : pos + W] * window`. */
  lemma WholeFrameInput(samples: seq<real>, window: seq<real>, pos: nat)
    requires pos + |window| <= |samples|
    ensures forall i :: 0 <= i < |window| ==>
      FrameInput(samples, window, pos)[i] == Complex(samples[pos + i] * window[i], 0.0)
  {
  }

  /** The sliding-window loop, `frames.append(np.abs(np.fft.rfft(frame)))`. */
  method PySpectrogramFrames(samples: seq<real>, window: seq<real>, hopSize: nat,
                             forward: seq<Complex> -> seq<Complex>, magnitude: Complex -> real)
    returns (frames: seq<seq<real>>)
    requires hopSize > 0 && |window| > 0 && LengthPreserving(forward)
    ensures |frames| == PyFrameCount(|samples|, |window|, hopSize)
    ensures forall t :: 0 <= t < |frames| ==>
      t * hopSize + |window| <= |samples| && frames[t] == MagFrame(samples, window, t * hopSize, forward, magnitude)
  {
    var windowSize := |window|;
    frames := [];
    var pos := 0;
    while pos + windowSize <= |samples|
      invariant pos == |frames| * hopSize
      invariant |frames| > 0 ==> (|frames| - 1) * hopSize + windowSize <= |samples|
      invariant forall t :: 0 <= t < |frames| ==>
        t * hopSize + windowSize <= |samples| && frames[t] == MagFrame(samples, window, t * hopSize, forward, magnitude)
      decreases |samples| - pos
    {
      var fftVals := forward(FrameInput(samples, window, pos));
      var mags := Magnitudes(fftVals, windowSize / 2 + 1, magnitude);
      frames := frames + [mags];
      pos := pos + hopSize;
    }
    var c := PyFrameCount(|samples|, windowSize, hopSize);
    PyFramesWhole(|samples|, windowSize, hopSize);
    if |frames| < c {
      MulLeftMono(|frames|, c - 1, hopSize);
    } else if |frames| > c {
      MulLeftMono(c, |frames| - 1, hopSize);
    }
  }

  /** `np.array(frames).T`: the transpose when there are frames, and an
      empty list (not empty rows) when there are none. */
  function PyTransposed(frames: seq<seq<real>>, bins: nat): (z: seq<seq<real>>)
    requires forall t :: 0 <= t < |frames| ==> |frames[t]| == bins
    ensures frames == [] ==> z == []
    ensures frames != [] ==> z == Transposed(frames, bins)
  {
    if frames == [] then [] else Transposed(frames, bins)
  }

  /** `/spectrogram`: whole 2048-sample frames every 512 samples, the
      magnitude grid transposed to `[freq][time]`, `x[t] = t * 512 / fs` and
      `y[k] = k * fs / 2048`. Every frame is one the C++ server computes
      for the same time index. With a rate of 0 and no whole frame, `x` is
      empty and `y` all zeros. */
  method PySpectrogram(samples: seq<real>, fs: real, window: seq<real>,
                       forward: seq<Complex> -> seq<Complex>, magnitude: Complex -> real)
    returns (x: seq<real>, y: seq<real>, z: seq<seq<real>>)
    requires fs != 0.0 || |samples| < WindowSize
    requires |window| == WindowSize && LengthPreserving(forward)
    ensures |y| == WindowSize / 2 + 1 && |x| == PyFrameCount(|samples|, WindowSize, HopSize)
    ensures |samples| < WindowSize ==> x == [] && z == []
    ensures fs == 0.0 ==> forall k :: 0 <= k < |y| ==> y[k] == 0.0
    ensures forall k :: 0 <= k < |y| ==> y[k] == BinFreq(k, fs, WindowSize)
    ensures forall t :: 0 <= t < |x| ==> x[t] == FrameTime(t, HopSize, fs)
    ensures |x| == 0 ==> z == []
    ensures |x| > 0 ==> |z| == |y| && forall f :: 0 <= f < |z| ==> |z[f]| == |x|
    ensures forall f, t :: 0 <= f < |z| && 0 <= t < |x| ==>
      z[f][t] == MagFrame(samples, window, t * HopSize, forward, magnitude)[f]
  {
    var frames := PySpectrogramFrames(samples, window, HopSize, forward, magnitude);
    var numFreqBins := WindowSize / 2 + 1;
    x := seq(|frames|, t requires 0 <= t < |frames| => FrameTime(t, HopSize, fs));
    y := seq(numFreqBins, k requires 0 <= k < numFreqBins => BinFreq(k, fs, WindowSize));
    z := PyTransposed(frames, numFreqBins);
  }

  // ---------------------------------------------------------------------
  // /saveEQ

  /** `s.replace(a, b)` for single characters. */
  function Replace(s: string, a: char, b: char): (r: string)
    ensures |r| == |s|
    ensures forall i :: 0 <= i < |s| ==> r[i] == (if s[i] == a then b else s[i])
    ensures a != b ==> a !in r
    ensures a !in s ==> r == s
  {
    seq(|s|, i requires 0 <= i < |s| => if s[i] == a then b else s[i])
  }

  /** `os.path.join(a, b)` on a POSIX system: `b` alone when it is absolute,
      otherwise `a` and `b` with one `/` between them. */
  function PosixJoin(a: string, b: string): string
  {
    if |b| > 0 && b[0] == '/' then b
    else if a == [] || a[|a| - 1] == '/' then a + b
    else a + "/" + b
  }

  /** `f"{mode}_output.wav"`. */
  function OutputFilename(mode: string): string
  {
    mode + "_output.wav"
  }

  /** The URL `/saveEQ` returns. */
  function SavedUrl(mode: string): (url: string)
    ensures '\\' !in url
  {
    Replace(PosixJoin("public", OutputFilename(mode)), '\\', '/')
  }

  /** The URL is `public/<mode>_output.wav` with backslashes turned into
      slashes, unless the mode is an absolute path, which replaces the
      `public` directory altogether. */
  lemma SavedUrlShape(mode: string)
    ensures |mode| == 0 || mode[0] != '/' ==> SavedUrl(mode) == Replace("public/" + mode + "_output.wav", '\\', '/')
    ensures '\\' !in mode && (|mode| == 0 || mode[0] != '/') ==> SavedUrl(mode) == "public/" + mode + "_output.wav"
    ensures |mode| > 0 && mode[0] == '/' ==> SavedUrl(mode) == Replace(mode + "_output.wav", '\\', '/')
  {
    var file := OutputFilename(mode);
    if |mode| == 0 || mode[0] != '/' {
      assert |file| > 0 && file[0] != '/';
      assert PosixJoin("public", file) == "public/" + mode + "_output.wav";
      if '\\' !in mode {
        var s := "public/" + mode + "_output.wav";
        forall c | c in s
          ensures c != '\\'
        {
          var i :| 0 <= i < |s| && s[i] == c;
          if 7 <= i < 7 + |mode| {
            assert s[i] == mode[i - 7];
          }
        }
      }
    } else {
      assert file[0] == '/';
    }
  }

  /** `np.int16(np.clip(samples, -1, 1) * 32767)`: each stored value, in
      order. */
  function SavedPcm(samples: seq<real>): (pcm: seq<int>)
    ensures |pcm| == |samples|
    ensures forall i :: 0 <= i < |pcm| ==> -Wav.FullScale <= pcm[i] <= Wav.FullScale && pcm[i] == Wav.Quantise(samples[i])
  {
    seq(|samples|, i requires 0 <= i < |samples| => Wav.Quantise(samples[i]))
  }

  /** The server stores the same int16 values as the client's WAV encoder
      puts at `44 + 2i`. */
  lemma SavedPcmMatchesClientWav(samples: seq<real>, sampleRate: int, i: nat)
    requires i < |samples|
    ensures 44 + 2 * i + 2 <= |Wav.WavFile(samples, sampleRate)|
    ensures Wav.ReadI16(Wav.WavFile(samples, sampleRate), 44 + 2 * i) == SavedPcm(samples)[i]
  {
    Wav.SampleRoundTrip(samples, sampleRate, i);
  }

  // ---------------------------------------------------------------------
  // Slider pairing of /MusicAi and /HumanAi

  /** One parsed slider entry: a JSON object, whose `name` and `value` may
      be missing, or any other JSON value (no `name`, `value` 1.0). */
  datatype SliderItem = Object(name: Option<string>, value: Option<real>) | NotObject

  /** `json.loads(sliders)`, with an unparseable string read as `[]`. */
  function ParsedSliders(json: Option<seq<SliderItem>>): (items: seq<SliderItem>)
    ensures json.None? ==> items == []
    ensures json.Some? ==> items == json.value
  {
    match json
    case None => []
    case Some(items) => items
  }

  /** `stem_map`: drums, vocals, violin and bass guitar are stems 0, 2, 3
      and 5 of the six-stem model. */
  function StemIndex(name: string): (idx: Option<nat>)
    ensures idx.Some? ==> idx.value in {0, 2, 3, 5}
    ensures idx.Some? <==> name in {"drums", "vocals", "violin", "bass_guitar"}
  {
    if name == "drums" then Some(0)
    else if name == "vocals" then Some(2)
    else if name == "violin" then Some(3)
    else if name == "bass_guitar" then Some(5)
    else None
  }

  /** Whether an entry names a stem. */
  predicate NamesStem(item: SliderItem)
  {
    item.Object? && item.name.Some? && StemIndex(item.name.value).Some?
  }

  /** The `(stem, gain)` pairs `/MusicAi` mixes, in slider order; `None`
      when a stem-named entry has no `value`, since `audio * None` raises. */
  function MusicPairs(items: seq<SliderItem>): (r: Option<seq<(nat, real)>>)
    ensures r.Some? ==> forall k :: 0 <= k < |r.value| ==> r.value[k].0 in {0, 2, 3, 5}
  {
    if items == [] then Some([])
    else
      match MusicPairs(items[..|items| - 1])
      case None => None
      case Some(ps) =>
        var item := items[|items| - 1];
        if NamesStem(item) then
          if item.value.None? then None
          else Some(ps + [(StemIndex(item.name.value).value, item.value.value)])
        else Some(ps)
  }

  /** `/MusicAi` fails exactly when some stem-named entry lacks a value. */
  lemma {:induction false} MusicPairsFail(items: seq<SliderItem>)
    ensures MusicPairs(items).None? <==>
      exists i :: 0 <= i < |items| && NamesStem(items[i]) && items[i].value.None?
  {
    if items != [] {
      var init := items[..|items| - 1];
      MusicPairsFail(init);
      if MusicPairs(init).None? {
        var i :| 0 <= i < |init| && NamesStem(init[i]) && init[i].value.None?;
        assert items[i] == init[i];
      } else {
        forall i | 0 <= i < |items| - 1
          ensures !(NamesStem(items[i]) && items[i].value.None?)
        {
          assert items[i] == init[i];
        }
      }
    }
  }

  /** Entries that name no stem contribute nothing: each pair comes from a
      stem-named entry, and there is one pair per such entry. */
  lemma {:induction false} MusicPairsCount(items: seq<SliderItem>)
    requires MusicPairs(items).Some?
    ensures |MusicPairs(items).value| == |set i | 0 <= i < |items| && NamesStem(items[i])|
  {
    if items != [] {
      var init := items[..|items| - 1];
      MusicPairsCount(init);
      var s := set i | 0 <= i < |init| && NamesStem(init[i]);
      var t := set i | 0 <= i < |items| && NamesStem(items[i]);
      var last := |items| - 1;
      var ps := MusicPairs(init).value;
      forall i | 0 <= i < last
        ensures i in t <==> i in s
      {
        assert init[i] == items[i];
      }
      assert last !in s;
      if NamesStem(items[last]) {
        assert |MusicPairs(items).value| == |ps| + 1;
        assert t == s + {last};
      } else {
        assert MusicPairs(items).value == ps;
        assert t == s;
      }
    }
  }

  /** `sum(sources[idx] * gain)` over the pairs, sample by sample. */
  function WeightedSum(sources: seq<seq<real>>, pairs: seq<(nat, real)>, len: nat): (mix: seq<real>)
    requires forall k :: 0 <= k < |pairs| ==> pairs[k].0 < |sources| && |sources[pairs[k].0]| == len
    ensures |mix| == len
  {
    if pairs == [] then seq(len, _ => 0.0)
    else
      var prev := WeightedSum(sources, pairs[..|pairs| - 1], len);
      var p := pairs[|pairs| - 1];
      AddScaled(prev, sources[p.0], p.1)
  }

  /** `mix += source * gain`, sample by sample. */
  function AddScaled(mix: seq<real>, source: seq<real>, gain: real): (r: seq<real>)
    requires |source| == |mix|
    ensures |r| == |mix|
    ensures forall k :: 0 <= k < |r| ==> r[k] == mix[k] + source[k] * gain
  {
    seq(|mix|, k requires 0 <= k < |mix| => mix[k] + source[k] * gain)
  }

  /** One more pair adds its source times its gain to every sample. */
  lemma WeightedSumAppend(sources: seq<seq<real>>, pairs: seq<(nat, real)>, p: (nat, real), len: nat)
    requires forall k :: 0 <= k < |pairs| ==> pairs[k].0 < |sources| && |sources[pairs[k].0]| == len
    requires p.0 < |sources| && |sources[p.0]| == len
    ensures var prev := WeightedSum(sources, pairs, len);
      WeightedSum(sources, pairs + [p], len) == AddScaled(prev, sources[p.0], p.1)
  {
    assert (pairs + [p])[..|pairs|] == pairs;
  }

  /** No pairs, silence; one pair, that source times its gain. */
  lemma WeightedSumSingle(sources: seq<seq<real>>, idx: nat, gain: real, len: nat)
    requires idx < |sources| && |sources[idx]| == len
    ensures WeightedSum(sources, [], len) == seq(len, _ => 0.0)
    ensures forall k :: 0 <= k < len ==> WeightedSum(sources, [(idx, gain)], len)[k] == sources[idx][k] * gain
  {
    assert [(idx, gain)][..0] == [];
  }

  function Abs(x: real): real
  {
    if x < 0.0 then -x else x
  }

  /** `np.max(np.abs(s))` of a non-empty sequence. */
  function MaxAbs(s: seq<real>): (m: real)
    requires |s| > 0
    ensures forall k :: 0 <= k < |s| ==> Abs(s[k]) <= m
    ensures exists k :: 0 <= k < |s| && Abs(s[k]) == m
  {
    if |s| == 1 then Abs(s[0])
    else
      var m := MaxAbs(s[..|s| - 1]);
      assert forall k :: 0 <= k < |s| - 1 ==> s[..|s| - 1][k] == s[k];
      if Abs(s[|s| - 1]) > m then Abs(s[|s| - 1]) else m
  }

  /** `final_mix / max_val` when the peak is positive: every value is then
      in `[-1, 1]`, the peak reaches 1, and the shape is kept. */
  function Normalised(mix: seq<real>): (r: seq<real>)
    requires |mix| > 0
    ensures |r| == |mix|
    ensures forall k :: 0 <= k < |r| ==> -1.0 <= r[k] <= 1.0
    ensures MaxAbs(mix) > 0.0 ==> forall k :: 0 <= k < |r| ==> r[k] == mix[k] / MaxAbs(mix)
    ensures MaxAbs(mix) > 0.0 ==> exists k :: 0 <= k < |r| && Abs(r[k]) == 1.0
    ensures MaxAbs(mix) == 0.0 ==> r == mix
  {
    var m := MaxAbs(mix);
    if m > 0.0 then
      var r := seq(|mix|, k requires 0 <= k < |mix| => mix[k] / m);
      assert forall k :: 0 <= k < |mix| ==> -1.0 <= r[k] <= 1.0 by {
        forall k | 0 <= k < |mix|
          ensures -1.0 <= r[k] <= 1.0
        {
          DivByPeak(mix[k], m);
        }
      }
      assert exists k :: 0 <= k < |r| && Abs(r[k]) == 1.0 by {
        var k :| 0 <= k < |mix| && Abs(mix[k]) == m;
        DivByPeak(mix[k], m);
        assert Abs(r[k]) == 1.0;
      }
      r
    else
      assert forall k :: 0 <= k < |mix| ==> -1.0 <= mix[k] <= 1.0 by {
        forall k | 0 <= k < |mix| ensures -1.0 <= mix[k] <= 1.0 { assert Abs(mix[k]) <= m; }
      }
      mix
  }

  /** A value divided by a peak at least its size lies in `[-1, 1]`, and
      the peak itself becomes 1. */
  lemma DivByPeak(x: real, m: real)
    requires m > 0.0 && Abs(x) <= m
    ensures -1.0 <= x / m <= 1.0 && (x / m) * m == x
    ensures Abs(x) == m ==> Abs(x / m) == 1.0
  {
    var q := x / m;
    assert q * m == x;
    assert (1.0 - q) * m == m - x;
    assert (q + 1.0) * m == x + m;
  }

  /** The gain loop and normalisation of `/MusicAi` on one channel: each
      stem-named slider adds its stem times its gain. */
  method MusicMix(sources: seq<seq<real>>, json: Option<seq<SliderItem>>, len: nat)
    returns (r: Option<seq<real>>)
    requires len > 0 && |sources| >= 6 && forall s :: 0 <= s < |sources| ==> |sources[s]| == len
    ensures match MusicPairs(ParsedSliders(json))
      case None => r == None
      case Some(ps) => r == Some(Normalised(WeightedSum(sources, ps, len)))
    ensures json.None? ==> r == Some(seq(len, _ => 0.0))
  {
    var items := ParsedSliders(json);
    var mix := seq(len, _ => 0.0);
    ghost var pairs: seq<(nat, real)> := [];
    var i := 0;
    while i < |items|
      invariant 0 <= i <= |items|
      invariant MusicPairs(items[..i]) == Some(pairs)
      invariant mix == WeightedSum(sources, pairs, len)
    {
      var item := items[i];
      MusicPairsStep(items, i, pairs);
      if item.Object? && item.name.Some? && StemIndex(item.name.value).Some? {
        var idx := StemIndex(item.name.value).value;
        if item.value.None? {
          MusicPairsNone(items, i + 1);
          return None;
        }
        var gain := item.value.value;
        WeightedSumAppend(sources, pairs, (idx, gain), len);
        mix := AddScaled(mix, sources[idx], gain);
        pairs := pairs + [(idx, gain)];
      }
      i := i + 1;
    }
    assert items[..|items|] == items;
    r := Some(Normalised(mix));
  }

  /** The pairs of one more entry, from the pairs before it. */
  lemma MusicPairsStep(items: seq<SliderItem>, i: nat, ps: seq<(nat, real)>)
    requires i < |items| && MusicPairs(items[..i]) == Some(ps)
    ensures !NamesStem(items[i]) ==> MusicPairs(items[..i + 1]) == Some(ps)
    ensures NamesStem(items[i]) && items[i].value.None? ==> MusicPairs(items[..i + 1]) == None
    ensures NamesStem(items[i]) && items[i].value.Some? ==>
      MusicPairs(items[..i + 1]) == Some(ps + [(StemIndex(items[i].name.value).value, items[i].value.value)])
  {
    assert items[..i + 1][..i] == items[..i];
  }

  /** Once an entry fails, the whole list fails. */
  lemma {:induction false} MusicPairsNone(items: seq<SliderItem>, i: nat)
    requires i <= |items| && MusicPairs(items[..i]).None?
    ensures MusicPairs(items).None?
    decreases |items| - i
  {
    if i < |items| {
      assert items[..i + 1][..i] == items[..i];
      MusicPairsNone(items, i + 1);
    } else {
      assert items[..i] == items;
    }
  }

  /** `val` of `/HumanAi`: the entry's `value` for an object (missing is
      `None`), 1.0 for anything else. */
  function HumanValue(item: SliderItem): Option<real>
  {
    match item
    case Object(_, v) => v
    case NotObject => Some(1.0)
  }

  /** The `(source, gain)` pairs `/HumanAi` mixes: slider `i` scales source
      `i` for `i` below the number of sources, later sliders are skipped;
      `None` when a used object entry has no `value`. */
  function HumanPairs(items: seq<SliderItem>, count: nat): (r: Option<seq<(nat, real)>>)
    ensures r.Some? ==> forall k :: 0 <= k < |r.value| ==> r.value[k].0 < count
  {
    if items == [] then Some([])
    else
      var i := |items| - 1;
      match HumanPairs(items[..i], count)
      case None => None
      case Some(ps) =>
        if i < count then
          match HumanValue(items[i])
          case None => None
          case Some(v) => Some(ps + [(i, v)])
        else Some(ps)
  }

  /** Slider `i` is paired with source `i`, for each `i` below both counts. */
  lemma {:induction false} HumanPairsShape(items: seq<SliderItem>, count: nat)
    ensures HumanPairs(items, count).Some? ==>
      var ps := HumanPairs(items, count).value;
      |ps| == MinInt(|items|, count) && forall k :: 0 <= k < |ps| ==> HumanValue(items[k]).Some? && ps[k] == (k, HumanValue(items[k]).value)
    ensures HumanPairs(items, count).None? <==>
      exists i :: 0 <= i < MinInt(|items|, count) && HumanValue(items[i]).None?
  {
    if items != [] {
      var i := |items| - 1;
      var init := items[..i];
      HumanPairsShape(init, count);
      assert forall k :: 0 <= k < i ==> init[k] == items[k];
      if HumanPairs(init, count).None? {
        var j :| 0 <= j < MinInt(|init|, count) && HumanValue(init[j]).None?;
        assert items[j] == init[j];
      }
    }
  }

  /** The gain loop of `/HumanAi`: `final_mix += est_sources[i] * val`. */
  method HumanMix(sources: seq<seq<real>>, json: Option<seq<SliderItem>>, len: nat)
    returns (r: Option<seq<real>>)
    requires forall s :: 0 <= s < |sources| ==> |sources[s]| == len
    ensures match HumanPairs(ParsedSliders(json), |sources|)
      case None => r == None
      case Some(ps) => r == Some(WeightedSum(sources, ps, len))
  {
    var items := ParsedSliders(json);
    var mix := seq(len, _ => 0.0);
    ghost var pairs: seq<(nat, real)> := [];
    var i := 0;
    while i < |items|
      invariant 0 <= i <= |items|
      invariant HumanPairs(items[..i], |sources|) == Some(pairs)
      invariant forall k :: 0 <= k < |pairs| ==> pairs[k].0 < |sources|
      invariant mix == WeightedSum(sources, pairs, len)
    {
      HumanPairsStep(items, |sources|, i, pairs);
      if i < |sources| {
        var val := HumanValue(items[i]);
        if val.None? {
          HumanPairsNone(items, |sources|, i + 1);
          return None;
        }
        WeightedSumAppend(sources, pairs, (i, val.value), len);
        mix := AddScaled(mix, sources[i], val.value);
        pairs := pairs + [(i, val.value)];
      }
      i := i + 1;
    }
    assert items[..|items|] == items;
    r := Some(mix);
  }

  /** The pairs of one more entry, from the pairs before it. */
  lemma HumanPairsStep(items: seq<SliderItem>, count: nat, i: nat, ps: seq<(nat, real)>)
    requires i < |items| && HumanPairs(items[..i], count) == Some(ps)
    ensures count <= i ==> HumanPairs(items[..i + 1], count) == Some(ps)
    ensures i < count && HumanValue(items[i]).None? ==> HumanPairs(items[..i + 1], count) == None
    ensures i < count && HumanValue(items[i]).Some? ==>
      HumanPairs(items[..i + 1], count) == Some(ps + [(i, HumanValue(items[i]).value)])
  {
    assert items[..i + 1][..i] == items[..i];
  }

  /** Once a used entry fails, the whole list fails. */
  lemma {:induction false} HumanPairsNone(items: seq<SliderItem>, count: nat, i: nat)
    requires i <= |items| && HumanPairs(items[..i], count).None?
    ensures HumanPairs(items, count).None?
    decreases |items| - i
  {
    if i < |items| {
      assert items[..i + 1][..i] == items[..i];
      HumanPairsNone(items, count, i + 1);
    } else {
      assert items[..i] == items;
    }
  }
}

=== FILE: spectrogram_view.dfy ===
/** The spectrogram viewer (`SpectogramController`): zoom/pan over the time
    axis of a `[frequency][time]` magnitude grid; the frequency axis is never
    windowed. */
module SpectrogramView {
  import opened Common
  import opened Viewport

  /** A heatmap as handed to the plot: time axis, frequency axis, rows. */
  datatype Heatmap = Heatmap(x: seq<real>, y: seq<real>, z: seq<seq<real>>)

  /** `Array.prototype.slice(a, b)` for `0 <= a <= b`: both ends are clamped
      to the length, so a window past the end yields fewer elements. */
  function JsSlice(s: seq<real>, a: nat, b: nat): (r: seq<real>)
    requires a <= b
    ensures |r| <= b - a
    ensures b <= |s| ==> r == s[a..b]
    ensures forall k :: 0 <= k < |r| ==> a + k < |s| && r[k] == s[a + k]
  {
    s[MinInt(a, |s|)..MinInt(b, |s|)]
  }

  /** What `render` does: the grid lookup throws (a missing row), the plot
      is skipped (an empty axis or grid), or the heatmap is drawn. */
  datatype Outcome = Thrown | Skipped | Drawn(heatmap: Heatmap)

  class SpectogramController {
    var times: seq<real>
    var frequencies: seq<real>
    var magnitudes: seq<seq<real>>
    var zoom: real
    var offset: real

    ghost predicate Valid()
      reads this
    {
      zoom >= 1.0 && 0.0 <= offset <= 1.0
    }

    constructor (times: seq<real>, frequencies: seq<real>, magnitudes: seq<seq<real>>)
      ensures Valid()
      ensures this.times == times && this.frequencies == frequencies && this.magnitudes == magnitudes
      ensures zoom == 1.0 && offset == 0.0
    {
      this.times := times;
      this.frequencies := frequencies;
      this.magnitudes := magnitudes;
      zoom := 1.0;
      offset := 0.0;
    }

    /** `getVisibleData`. The number of frames is the length of the first
        row; every row `f` of the frequency axis is sliced to the window.
        None is the TypeError raised when a frequency has no row. */
    function GetVisibleData(): (r: Option<Heatmap>)
      requires Valid()
      reads this
      ensures |magnitudes| == 0 ==> r == Some(Heatmap([], [], []))
      ensures r.None? <==> 0 < |magnitudes| < |frequencies|
      ensures r.Some? && |magnitudes| > 0 ==>
        var w := Window(|magnitudes[0]|, zoom, offset);
        && w.end - w.start <= VisibleCount(|magnitudes[0]|, zoom)
        && r.value.x == JsSlice(times, w.start, w.end)
        && r.value.y == frequencies
        && |r.value.z| == |frequencies|
        && forall f :: 0 <= f < |frequencies| ==> r.value.z[f] == JsSlice(magnitudes[f], w.start, w.end)
    {
      if |magnitudes| == 0 then Some(Heatmap([], [], []))
      else if |magnitudes| < |frequencies| then None
      else
        var w := Window(|magnitudes[0]|, zoom, offset);
        var x := JsSlice(times, w.start, w.end);
        var rows, n := magnitudes, |frequencies|;
        var z := seq(n, f requires 0 <= f < n => JsSlice(rows[f], w.start, w.end));
        Some(Heatmap(x, frequencies, z))
    }

    /** `render`: nothing is drawn when any of x, y and z is empty. */
    function Render(): (o: Outcome)
      requires Valid()
      reads this
      ensures o.Thrown? <==> GetVisibleData().None?
      ensures o.Drawn? ==> |o.heatmap.x| > 0 && |o.heatmap.y| > 0 && |o.heatmap.z| > 0
      ensures o.Drawn? ==> GetVisibleData().Some? && o.heatmap == GetVisibleData().value
      ensures o.Skipped? ==> |magnitudes| == 0 || |frequencies| == 0 || GetVisibleData().value.x == []
    {
      match GetVisibleData()
      case None => Thrown
      case Some(h) =>
        if |h.x| == 0 || |h.y| == 0 || |h.z| == 0 then Skipped else Drawn(h)
    }

    method ClampOffset()
      requires Valid()
      modifies this`offset
      ensures Valid()
      ensures offset == Clamped(old(offset), zoom)
      ensures 0.0 <= offset <= MaxOffset(zoom)
      ensures 0.0 <= old(offset) <= MaxOffset(zoom) ==> offset == old(offset)
    {
      offset := Clamped(offset, zoom);
    }

    /** The zoom-in button: `zoom *= 1.5` with no ceiling, then re-clamp. */
    method ZoomIn()
      requires Valid()
      modifies this`zoom, this`offset
      ensures Valid()
      ensures zoom == old(zoom) * ZoomFactor && zoom > old(zoom)
      ensures offset == Clamped(old(offset), zoom) && 0.0 <= offset <= MaxOffset(zoom)
    {
      zoom := zoom * ZoomFactor;
      ClampOffset();
    }

    method ZoomOut()
      requires Valid()
      modifies this`zoom, this`offset
      ensures Valid()
      ensures zoom == ZoomedOut(old(zoom)) && 1.0 <= zoom <= old(zoom)
      ensures offset == Clamped(old(offset), zoom) && 0.0 <= offset <= MaxOffset(zoom)
    {
      zoom := ZoomedOut(zoom);
      ClampOffset();
    }

    /** The pan slider's `input` handler stores the slider value unclamped. */
    method Pan(value: real)
      requires Valid() && 0.0 <= value <= 1.0
      modifies this`offset
      ensures Valid() && offset == value && zoom == old(zoom)
    {
      offset := value;
    }

    method Reset()
      requires Valid()
      modifies this`zoom, this`offset
      ensures Valid() && zoom == 1.0 && offset == 0.0
    {
      zoom := 1.0;
      offset := 0.0;
    }

    /** `updateData` replaces the three arrays and keeps zoom and offset. */
    method UpdateData(newTimes: seq<real>, newFrequencies: seq<real>, newMagnitudes: seq<seq<real>>)
      requires Valid()
      modifies this`times, this`frequencies, this`magnitudes
      ensures Valid()
      ensures times == newTimes && frequencies == newFrequencies && magnitudes == newMagnitudes
    {
      times := newTimes;
      frequencies := newFrequencies;
      magnitudes := newMagnitudes;
    }
  }

  /** With a time axis and rows of the common length `|magnitudes[0]|`, the
      drawn heatmap is rectangular: every row has one entry per visible time. */
  lemma HeatmapRectangular(v: SpectogramController)
    requires v.Valid() && 0 < |v.magnitudes| && |v.frequencies| <= |v.magnitudes|
    requires |v.times| == |v.magnitudes[0]|
    requires forall f :: 0 <= f < |v.frequencies| ==> |v.magnitudes[f]| == |v.times|
    ensures v.GetVisibleData().Some?
    ensures var h := v.GetVisibleData().value;
      forall f :: 0 <= f < |h.z| ==> |h.z[f]| == |h.x| == VisibleCount(|v.times|, v.zoom)
  {
  }
}

=== FILE: spectrum.dfy ===
/** The spectrum viewer (`FourierController`): zoom/pan over a frequency axis
    and the strided selection of at most MaxPoints plotted points. */
module Spectrum {
  import opened Common
  import opened Viewport

  /** What `render` hands to the plot: nothing (the plot is purged) or one trace.
      A magnitude read past the end of `magnitudes` is JavaScript's
      `undefined`, modelled as None. */
  datatype Plot = Purged | Trace(x: seq<real>, y: seq<Option<real>>)

  class FourierController {
    var frequencies: seq<real>
    var magnitudes: seq<real>
    var zoom: real
    var offset: real

    ghost predicate Valid()
      reads this
    {
      zoom >= 1.0 && 0.0 <= offset <= 1.0
    }

    constructor (frequencies: seq<real>, magnitudes: seq<real>)
      ensures Valid()
      ensures this.frequencies == frequencies && this.magnitudes == magnitudes
      ensures zoom == 1.0 && offset == 0.0
    {
      this.frequencies := frequencies;
      this.magnitudes := magnitudes;
      zoom := 1.0;
      offset := 0.0;
    }

    /** `magnitudes[i]`, which is `undefined` past the end. */
    function MagAt(i: nat): Option<real>
      reads this
    {
      if i < |magnitudes| then Some(magnitudes[i]) else None
    }

    method ClampOffset()
      requires Valid()
      modifies this`offset
      ensures Valid()
      ensures offset == Clamped(old(offset), zoom)
      ensures 0.0 <= offset <= MaxOffset(zoom)
      ensures 0.0 <= old(offset) <= MaxOffset(zoom) ==> offset == old(offset)
    {
      offset := Clamped(offset, zoom);
    }

    /** The zoom-in button: `zoom *= 1.5` with no ceiling, then re-clamp. */
    method ZoomIn()
      requires Valid()
      modifies this`zoom, this`offset
      ensures Valid()
      ensures zoom == old(zoom) * ZoomFactor && zoom > old(zoom)
      ensures offset == Clamped(old(offset), zoom) && 0.0 <= offset <= MaxOffset(zoom)
    {
      zoom := zoom * ZoomFactor;
      ClampOffset();
    }

    method ZoomOut()
      requires Valid()
      modifies this`zoom, this`offset
      ensures Valid()
      ensures zoom == ZoomedOut(old(zoom)) && 1.0 <= zoom <= old(zoom)
      ensures offset == Clamped(old(offset), zoom) && 0.0 <= offset <= MaxOffset(zoom)
    {
      zoom := ZoomedOut(zoom);
      ClampOffset();
    }

    /** The pan slider's `input` handler stores the slider value unclamped. */
    method Pan(value: real)
      requires Valid() && 0.0 <= value <= 1.0
      modifies this`offset
      ensures Valid() && offset == value && zoom == old(zoom)
    {
      offset := value;
    }

    method Reset()
      requires Valid()
      modifies this`zoom, this`offset
      ensures Valid() && zoom == 1.0 && offset == 0.0
    {
      zoom := 1.0;
      offset := 0.0;
    }

    /** `updateData` replaces both arrays and, unlike the spectrogram viewer,
        also returns to zoom 1 and offset 0. */
    method UpdateData(newFrequencies: seq<real>, newMagnitudes: seq<real>)
      requires Valid()
      modifies this
      ensures Valid()
      ensures frequencies == newFrequencies && magnitudes == newMagnitudes
      ensures zoom == 1.0 && offset == 0.0
    {
      frequencies := newFrequencies;
      magnitudes := newMagnitudes;
      offset := 0.0;
      zoom := 1.0;
    }

    /** `getVisibleData`: nothing when either array is empty; otherwise every
        `step`-th point of the visible window `[start, end)`, where `step`
        keeps the count within MaxPoints. */
    method GetVisibleData() returns (visibleFreq: seq<real>, visibleMag: seq<Option<real>>)
      requires Valid()
      ensures |visibleFreq| == |visibleMag| <= MaxPoints
      ensures |frequencies| == 0 || |magnitudes| == 0 ==> visibleFreq == []
      ensures |frequencies| > 0 && |magnitudes| > 0 ==>
        var w := Window(|frequencies|, zoom, offset);
        var step := Stride(w.end - w.start);
        && (|visibleFreq| > 0 <==> w.start < w.end)
        && (forall k :: 0 <= k < |visibleFreq| ==>
              && w.start <= Strided(w.start, step, k) < w.end
              && visibleFreq[k] == frequencies[Strided(w.start, step, k)]
              && visibleMag[k] == MagAt(Strided(w.start, step, k)))
        && w.end <= Strided(w.start, step, |visibleFreq|)
    {
      if |frequencies| == 0 || |magnitudes| == 0 {
        return [], [];
      }
      var w := Window(|frequencies|, zoom, offset);
      var start, end := w.start, w.end;
      var step := Stride(end - start);
      visibleFreq, visibleMag := [], [];
      var i := start;
      while i < end
        invariant start <= i && |visibleFreq| == |visibleMag|
        invariant i == Strided(start, step, |visibleFreq|)
        invariant |visibleFreq| > 0 ==> Strided(start, step, |visibleFreq| - 1) < end
        invariant forall k :: 0 <= k < |visibleFreq| ==>
          && Strided(start, step, k) < end
          && visibleFreq[k] == frequencies[Strided(start, step, k)]
          && visibleMag[k] == MagAt(Strided(start, step, k))
        decreases end - i
      {
        StridedNext(start, step, |visibleFreq|);
        visibleFreq := visibleFreq + [frequencies[i]];
        visibleMag := visibleMag + [MagAt(i)];
        i := i + step;
      }
      if |visibleFreq| > 0 {
        StridedCount(start, end, step, |visibleFreq|);
      }
    }

    /** `render`: purge the plot when there is nothing to show, otherwise one
        trace of the visible points. */
    method Render() returns (p: Plot)
      requires Valid()
      ensures p.Purged? <==> (|frequencies| == 0 || |magnitudes| == 0 || VisibleCount(|frequencies|, zoom) == 0)
      ensures p.Trace? ==> 0 < |p.x| == |p.y| <= MaxPoints
      ensures p.Trace? ==>
        var w := Window(|frequencies|, zoom, offset);
        var step := Stride(w.end - w.start);
        && (forall k :: 0 <= k < |p.x| ==>
              && w.start <= Strided(w.start, step, k) < w.end
              && p.x[k] == frequencies[Strided(w.start, step, k)]
              && p.y[k] == MagAt(Strided(w.start, step, k)))
        && w.end <= Strided(w.start, step, |p.x|)
    {
      var vf, vm := GetVisibleData();
      if |vf| == 0 {
        return Purged;
      }
      p := Trace(vf, vm);
    }
  }

  /** Index of the k-th plotted point: `start + k * step`. */
  function Strided(start: nat, step: nat, k: nat): nat
  {
    start + k * step
  }

  lemma StridedNext(start: nat, step: nat, k: nat)
    ensures Strided(start, step, k + 1) == Strided(start, step, k) + step
  {
  }

  /** The stride keeps the plotted count within MaxPoints. */
  lemma StridedCount(start: nat, end: nat, step: nat, count: nat)
    requires start <= end && step == Stride(end - start) && count > 0
    requires Strided(start, step, count - 1) < end
    ensures count <= MaxPoints
  {
    // (count - 1) * step < end - start <= step * MaxPoints
    MulCancelLess(count - 1, MaxPoints, step);
  }
}

=== FILE: viewport.dfy ===
/** Zoom/pan arithmetic shared by the waveform, spectrum and spectrogram viewers:
    the `clampOffset` bound, the zoom steps and the visible index window. */
module Viewport {
  import opened Common

  /** Factor of one zoom-in or zoom-out click. */
  const ZoomFactor: real := 1.5

  /** Zoom ceiling of the waveform viewer (the other two have none). */
  const WaveformZoomCap: real := 2000.0

  /** Largest number of points the spectrum viewer hands to the plot. */
  const MaxPoints: nat := 2000

  /** Right end of the pan range, `max(0, 1 - 1/zoom)`: what is left of the
      unit interval once one window of width `1/zoom` is kept in view. */
  function MaxOffset(zoom: real): (m: real)
    requires zoom > 0.0
    ensures 0.0 <= m < 1.0
    ensures zoom >= 1.0 ==> (1.0 - m) * zoom == 1.0
    ensures zoom <= 1.0 ==> m == 0.0
  {
    Max(0.0, 1.0 - 1.0 / zoom)
  }

  /** `clampOffset`: `min(max(offset, 0), maxOffset)`. */
  function Clamped(offset: real, zoom: real): (r: real)
    requires zoom > 0.0
    ensures 0.0 <= r <= MaxOffset(zoom)
    ensures 0.0 <= offset <= MaxOffset(zoom) ==> r == offset
    ensures offset < 0.0 ==> r == 0.0
    ensures offset > MaxOffset(zoom) ==> r == MaxOffset(zoom)
  {
    Min(Max(offset, 0.0), MaxOffset(zoom))
  }

  /** The waveform viewer's zoom-in: `min(zoom * 1.5, 2000)`. */
  function ZoomedInCapped(zoom: real): (z: real)
    requires zoom >= 1.0
    ensures 1.0 <= z <= WaveformZoomCap
    ensures zoom <= WaveformZoomCap ==> zoom <= z
    ensures z < WaveformZoomCap ==> z == zoom * ZoomFactor
  {
    Min(zoom * ZoomFactor, WaveformZoomCap)
  }

  /** Every viewer's zoom-out: `max(zoom / 1.5, 1)`. */
  function ZoomedOut(zoom: real): (z: real)
    requires zoom >= 1.0
    ensures 1.0 <= z <= zoom
    ensures z * ZoomFactor >= zoom
    ensures z > 1.0 ==> z * ZoomFactor == zoom
  {
    Max(zoom / ZoomFactor, 1.0)
  }

  /** `Math.floor(total / zoom)`: how many points one window shows. */
  function VisibleCount(total: nat, zoom: real): (c: nat)
    requires zoom >= 1.0
    ensures c <= total
    ensures c as real * zoom <= total as real < (c + 1) as real * zoom
    ensures zoom == 1.0 ==> c == total
  {
    var c := (total as real / zoom).Floor;
    FloorQuotient(total as real, zoom);
    assert 0 <= c by {
      assert 0.0 < (c + 1) as real * zoom;
    }
    assert c <= total by {
      assert c as real * (zoom - 1.0) >= 0.0;
    }
    assert zoom == 1.0 ==> c == total;
    c
  }

  /** A half-open index window `[start, end)`. */
  datatype Span = Span(start: nat, end: nat)

  /** `0 <= o <= 1` keeps `o * d` between `0` and `d`. */
  lemma FractionBounds(o: real, d: real)
    requires 0.0 <= o <= 1.0 && 0.0 <= d
    ensures 0.0 <= o * d <= d
  {
    assert o * d <= 1.0 * d;
  }

  /** The visible window of a series of `total` points, as the spectrum and
      spectrogram viewers compute it:
      `start = floor(offset * (total - count))`, `end = min(start + count, total)`. */
  function Window(total: nat, zoom: real, offset: real): (w: Span)
    requires zoom >= 1.0 && 0.0 <= offset <= 1.0
    ensures w.start <= w.end <= total
    ensures w.end - w.start == VisibleCount(total, zoom)
    ensures zoom == 1.0 ==> w == Span(0, total)
    ensures offset == 0.0 ==> w.start == 0
  {
    var count := VisibleCount(total, zoom);
    var d := (total - count) as real;
    FractionBounds(offset, d);
    var start := (offset * d).Floor;
    assert 0 <= start <= total - count;
    Span(start, MinInt(start + count, total))
  }

  /** `Math.ceil(span / 2000)`: the stride that keeps a window of `span`
      points within MaxPoints plotted points. */
  function Stride(span: nat): (step: nat)
    ensures span == 0 <==> step == 0
    ensures span <= step * MaxPoints
    ensures step > 0 ==> (step - 1) * MaxPoints < span
  {
    var c := Ceil(span as real / 2000.0);
    assert (c - 1) as real < span as real / 2000.0 <= c as real;
    assert ((c - 1) * 2000) as real < span as real;
    assert span as real <= (c * 2000) as real;
    c
  }

  /** `_styleSliderTrack`: the filled share of a range input's track,
      `(value - min) / (max - min) * 100`. */
  function TrackPercent(value: real, lo: real, hi: real): (p: real)
    requires lo < hi
    ensures lo <= value <= hi ==> 0.0 <= p <= 100.0
    ensures value == lo ==> p == 0.0
    ensures value == hi ==> p == 100.0
  {
    var d := hi - lo;
    var q := (value - lo) / d;
    assert q * d == value - lo;
    assert lo <= value <= hi ==> 0.0 <= q <= 1.0 by {
      if lo <= value <= hi {
        assert (1.0 - q) * d == d - (value - lo);
      }
    }
    q * 100.0
  }

  /** A slider further right fills more of its track. */
  lemma TrackPercentMonotone(v: real, w: real, lo: real, hi: real)
    requires lo < hi && v <= w
    ensures TrackPercent(v, lo, hi) <= TrackPercent(w, lo, hi)
  {
    var d := hi - lo;
    var x := (w - lo) / d - (v - lo) / d;
    assert x * d == w - v;
  }
}

=== FILE: wav.dfy ===
/** `samplesToWav`: a mono 16-bit PCM file in the RIFF WAVE format — a
    44-byte header (the `RIFF` form, the `fmt ` chunk with format 1 and the
    `data` chunk header) followed by the samples as little-endian int16. */
module Wav {
  import opened Common

  newtype byte = x: int | 0 <= x < 256

  const NumChannels: nat := 1
  const BytesPerSample: nat := 2
  const HeaderSize: nat := 44
  /** Full scale of a 16-bit sample, `0x7fff`. */
  const FullScale: int := 0x7fff

  /** `setUint16(_, v, true)`: the value modulo 2^16, low byte first. */
  function U16LE(v: int): (b: seq<byte>)
    ensures |b| == 2
  {
    var m := v % 0x1_0000;
    [(m % 256) as byte, (m / 256) as byte]
  }

  /** `setUint32(_, v, true)`: the value modulo 2^32, low byte first. */
  function U32LE(v: int): (b: seq<byte>)
    ensures |b| == 4
  {
    var m := v % 0x1_0000_0000;
    [(m % 256) as byte, (m / 0x100 % 256) as byte, (m / 0x1_0000 % 256) as byte, (m / 0x100_0000) as byte]
  }

  /** `setInt16(_, v, true)` of an integer: two's complement, low byte first. */
  function I16LE(v: int): (b: seq<byte>)
    ensures |b| == 2
  {
    U16LE(v)
  }

  /** The character codes of a tag, as `writeString` stores them. */
  function Ascii(s: string): (b: seq<byte>)
    ensures |b| == |s|
    ensures forall i :: 0 <= i < |s| ==> b[i] as int == s[i] as int % 256
  {
    seq(|s|, i requires 0 <= i < |s| => (s[i] as int % 256) as byte)
  }

  /** Little-endian decoders, as a reader of the file interprets the fields. */
  function DecodeU16(b: seq<byte>): int
    requires |b| == 2
  {
    b[0] as int + 256 * b[1] as int
  }

  function DecodeU32(b: seq<byte>): int
    requires |b| == 4
  {
    b[0] as int + 0x100 * b[1] as int + 0x1_0000 * b[2] as int + 0x100_0000 * b[3] as int
  }

  function DecodeI16(b: seq<byte>): int
    requires |b| == 2
  {
    var u := DecodeU16(b);
    if u >= 0x8000 then u - 0x1_0000 else u
  }

  /** The fields of a file read at a byte offset. */
  function ReadU16(f: seq<byte>, at: nat): int
    requires at + 2 <= |f|
  {
    DecodeU16(f[at..at + 2])
  }

  function ReadU32(f: seq<byte>, at: nat): int
    requires at + 4 <= |f|
  {
    DecodeU32(f[at..at + 4])
  }

  function ReadI16(f: seq<byte>, at: nat): int
    requires at + 2 <= |f|
  {
    DecodeI16(f[at..at + 2])
  }

  lemma U16RoundTrip(v: int)
    ensures DecodeU16(U16LE(v)) == v % 0x1_0000
  {
  }

  lemma U32RoundTrip(v: int)
    ensures DecodeU32(U32LE(v)) == v % 0x1_0000_0000
  {
    var m := v % 0x1_0000_0000;
    var b := U32LE(v);
    assert m == m % 256 + 0x100 * (m / 0x100);
    assert m / 0x100 == m / 0x100 % 256 + 0x100 * (m / 0x1_0000);
    assert m / 0x1_0000 == m / 0x1_0000 % 256 + 0x100 * (m / 0x100_0000);
  }

  lemma I16RoundTrip(v: int)
    requires -0x8000 <= v < 0x8000
    ensures DecodeI16(I16LE(v)) == v
  {
    U16RoundTrip(v);
  }

  /** `Math.max(-1, Math.min(1, s))`. */
  function Clip(s: real): (c: real)
    ensures -1.0 <= c <= 1.0
    ensures -1.0 <= s <= 1.0 ==> c == s
  {
    Max(-1.0, Min(1.0, s))
  }

  /** The stored sample: the clipped value times `0x7fff`, truncated toward
      zero as the int16 conversion does. It never leaves `[-32767, 32767]`
      and keeps the sign of the input. */
  function Quantise(s: real): (q: int)
    ensures -FullScale <= q <= FullScale
    ensures s >= 1.0 ==> q == FullScale
    ensures s <= -1.0 ==> q == -FullScale
    ensures 0.0 <= s ==> 0 <= q && q as real <= Clip(s) * FullScale as real < q as real + 1.0
    ensures s < 0.0 ==> q <= 0 && q as real - 1.0 < Clip(s) * FullScale as real <= q as real
  {
    var c := Clip(s);
    assert -32767.0 <= c * 32767.0 <= 32767.0;
    Trunc(c * FullScale as real)
  }

  /** A louder input never gives a smaller stored sample. */
  lemma QuantiseMonotone(s: real, t: real)
    requires s <= t
    ensures Quantise(s) <= Quantise(t)
  {
    assert Clip(s) <= Clip(t);
    assert Clip(s) * FullScale as real <= Clip(t) * FullScale as real;
  }

  /** The `RIFF` form header: the tag, the size of the rest of the file
      (`36 + 2n`) and the form type `WAVE`. */
  function RiffHeader(n: nat): (b: seq<byte>)
    ensures |b| == 12
  {
    Ascii("RIFF") + U32LE(36 + n * BytesPerSample) + Ascii("WAVE")
  }

  /** The `fmt ` chunk: size 16, format 1 (PCM), one channel, the rate, the
      byte rate, the block alignment and 16 bits per sample. */
  function FmtChunk(sampleRate: int): (b: seq<byte>)
    ensures |b| == 24
  {
    Ascii("fmt ") + U32LE(16) + U16LE(1) + U16LE(NumChannels)
    + U32LE(sampleRate) + U32LE(sampleRate * NumChannels * BytesPerSample)
    + U16LE(NumChannels * BytesPerSample) + U16LE(BytesPerSample * 8)
  }

  /** The `data` chunk header: the tag and the size of the samples, `2n`. */
  function DataHeader(n: nat): (b: seq<byte>)
    ensures |b| == 8
  {
    Ascii("data") + U32LE(n * BytesPerSample)
  }

  /** The 44-byte header for `n` samples at `sampleRate`. */
  function Header(n: nat, sampleRate: int): (b: seq<byte>)
    ensures |b| == HeaderSize
  {
    RiffHeader(n) + FmtChunk(sampleRate) + DataHeader(n)
  }

  /** The data chunk: every sample quantised, two bytes each, in order. */
  function SampleBytes(samples: seq<real>): (b: seq<byte>)
    ensures |b| == 2 * |samples|
  {
    if samples == [] then []
    else SampleBytes(samples[..|samples| - 1]) + I16LE(Quantise(samples[|samples| - 1]))
  }

  /** The whole file. */
  function WavFile(samples: seq<real>, sampleRate: int): seq<byte>
  {
    Header(|samples|, sampleRate) + SampleBytes(samples)
  }

  /** Sample `i` sits at bytes `2i` and `2i + 1` of the data chunk. */
  lemma {:induction false} SampleBytesAt(samples: seq<real>, i: nat)
    requires i < |samples|
    ensures SampleBytes(samples)[2 * i..2 * i + 2] == I16LE(Quantise(samples[i]))
    decreases |samples|
  {
    var last := |samples| - 1;
    var prefix := samples[..last];
    if i < last {
      SampleBytesAt(prefix, i);
      assert prefix[i] == samples[i];
      assert SampleBytes(samples)[2 * i..2 * i + 2] == SampleBytes(prefix)[2 * i..2 * i + 2];
    } else {
      assert SampleBytes(samples)[2 * i..2 * i + 2] == I16LE(Quantise(samples[last]));
    }
  }

  /** Appending one sample appends its two bytes. */
  lemma SampleBytesStep(samples: seq<real>, i: nat)
    requires i < |samples|
    ensures SampleBytes(samples[..i + 1]) == SampleBytes(samples[..i]) + I16LE(Quantise(samples[i]))
  {
    assert samples[..i + 1][..i] == samples[..i];
  }

  /** The file is the header plus two bytes per sample. */
  lemma WavLength(samples: seq<real>, sampleRate: int)
    ensures |WavFile(samples, sampleRate)| == HeaderSize + 2 * |samples|
  {
  }

  /** Where the RIFF and `data` header fields sit in the file. */
  lemma HeaderLayout(samples: seq<real>, sampleRate: int)
    ensures var f := WavFile(samples, sampleRate); var n := |samples|;
      && |f| >= HeaderSize
      && f[0..4] == Ascii("RIFF") && f[4..8] == U32LE(36 + 2 * n) && f[8..12] == Ascii("WAVE")
      && f[36..40] == Ascii("data") && f[40..44] == U32LE(2 * n)
  {
    var f := WavFile(samples, sampleRate);
    var n := |samples|;
    var r, m, d := RiffHeader(n), FmtChunk(sampleRate), DataHeader(n);
    assert f == r + m + d + SampleBytes(samples);
    assert f[0..12] == r;
    assert f[36..44] == d;
  }

  /** Where each field sits inside the `fmt ` chunk. */
  lemma FmtChunkFields(sampleRate: int)
    ensures var m := FmtChunk(sampleRate);
      && m[0..4] == Ascii("fmt ") && m[4..8] == U32LE(16)
      && m[8..10] == U16LE(1) && m[10..12] == U16LE(1)
      && m[12..16] == U32LE(sampleRate) && m[16..20] == U32LE(2 * sampleRate)
      && m[20..22] == U16LE(2) && m[22..24] == U16LE(16)
  {
    var head := Ascii("fmt ") + U32LE(16) + U16LE(1) + U16LE(NumChannels);
    var tail := U32LE(sampleRate) + U32LE(sampleRate * NumChannels * BytesPerSample)
      + U16LE(NumChannels * BytesPerSample) + U16LE(BytesPerSample * 8);
    assert FmtChunk(sampleRate) == head + tail;
  }

  /** Where the `fmt ` chunk's fields sit in the file. */
  lemma FmtLayout(samples: seq<real>, sampleRate: int)
    ensures var f := WavFile(samples, sampleRate);
      && |f| >= HeaderSize
      && f[12..16] == Ascii("fmt ") && f[16..20] == U32LE(16)
      && f[20..22] == U16LE(1) && f[22..24] == U16LE(1)
      && f[24..28] == U32LE(sampleRate) && f[28..32] == U32LE(2 * sampleRate)
      && f[32..34] == U16LE(2) && f[34..36] == U16LE(16)
  {
    var f := WavFile(samples, sampleRate);
    var n := |samples|;
    var r, m, d := RiffHeader(n), FmtChunk(sampleRate), DataHeader(n);
    assert f == r + m + d + SampleBytes(samples);
    assert f[12..36] == m;
    FmtChunkFields(sampleRate);
  }

  /** The sizes in the RIFF and `data` headers decode to the values written,
      `36 + 2n` and `2n`, modulo 2^32 as the 32-bit setter stores them. */
  lemma SizeFields(samples: seq<real>, sampleRate: int)
    ensures var f := WavFile(samples, sampleRate); var n := |samples|;
      && |f| >= HeaderSize
      && ReadU32(f, 4) == (36 + 2 * n) % 0x1_0000_0000
      && ReadU32(f, 40) == (2 * n) % 0x1_0000_0000
  {
    var f := WavFile(samples, sampleRate);
    var n := |samples|;
    HeaderLayout(samples, sampleRate);
    U32RoundTrip(36 + 2 * n);
    assert ReadU32(f, 4) == DecodeU32(U32LE(36 + 2 * n));
    U32RoundTrip(2 * n);
    assert ReadU32(f, 40) == DecodeU32(U32LE(2 * n));
  }

  /** The constant `fmt ` fields decode to the values written: size 16,
      PCM, one channel, block align 2 and 16 bits per sample. */
  lemma FormatFields(samples: seq<real>, sampleRate: int)
    ensures var f := WavFile(samples, sampleRate);
      && |f| >= HeaderSize
      && ReadU32(f, 16) == 16
      && ReadU16(f, 20) == 1
      && ReadU16(f, 22) == 1
      && ReadU16(f, 32) == 2
      && ReadU16(f, 34) == 16
  {
    var f := WavFile(samples, sampleRate);
    FmtLayout(samples, sampleRate);
    U32RoundTrip(16);
    assert ReadU32(f, 16) == DecodeU32(U32LE(16));
    U16RoundTrip(1);
    assert ReadU16(f, 20) == DecodeU16(U16LE(1)) == ReadU16(f, 22);
    U16RoundTrip(2);
    assert ReadU16(f, 32) == DecodeU16(U16LE(2));
    U16RoundTrip(16);
    assert ReadU16(f, 34) == DecodeU16(U16LE(16));
  }

  /** The rate and the byte rate `2 * rate` decode to the values written,
      modulo 2^32 as the 32-bit setter stores them. */
  lemma RateFields(samples: seq<real>, sampleRate: int)
    ensures var f := WavFile(samples, sampleRate);
      && |f| >= HeaderSize
      && ReadU32(f, 24) == sampleRate % 0x1_0000_0000
      && ReadU32(f, 28) == (2 * sampleRate) % 0x1_0000_0000
  {
    var f := WavFile(samples, sampleRate);
    FmtLayout(samples, sampleRate);
    U32RoundTrip(sampleRate);
    assert ReadU32(f, 24) == DecodeU32(U32LE(sampleRate));
    U32RoundTrip(2 * sampleRate);
    assert ReadU32(f, 28) == DecodeU32(U32LE(2 * sampleRate));
  }

  /** Decoding the int16 at `44 + 2i` gives back the quantised sample `i`:
      order is kept and nothing is lost beyond the quantisation. */
  lemma SampleRoundTrip(samples: seq<real>, sampleRate: int, i: nat)
    requires i < |samples|
    ensures 44 + 2 * i + 2 <= |WavFile(samples, sampleRate)|
    ensures ReadI16(WavFile(samples, sampleRate), 44 + 2 * i) == Quantise(samples[i])
  {
    var f := WavFile(samples, sampleRate);
    SampleBytesAt(samples, i);
    assert f[44 + 2 * i..44 + 2 * i + 2] == SampleBytes(samples)[2 * i..2 * i + 2];
    I16RoundTrip(Quantise(samples[i]));
  }

  /** One DataView write: the bytes `b` at `off`, everything else kept. */
  method SetBytes(buf: array<byte>, off: nat, b: seq<byte>)
    requires off + |b| <= buf.Length
    modifies buf
    ensures buf[..off + |b|] == old(buf[..off]) + b
    ensures buf[off + |b|..] == old(buf[off + |b|..])
  {
    var j := 0;
    while j < |b|
      invariant 0 <= j <= |b|
      invariant buf[..off + j] == old(buf[..off]) + b[..j]
      invariant buf[off + j..] == old(buf[off + j..])
    {
      buf[off + j] := b[j];
      assert buf[..off + j + 1] == buf[..off + j] + [b[j]];
      assert b[..j + 1] == b[..j] + [b[j]];
      j := j + 1;
    }
    assert b[..|b|] == b;
  }

  /** The RIFF header writes at offsets 0, 4 and 8. */
  method WriteRiffHeader(buf: array<byte>, n: nat)
    requires HeaderSize <= buf.Length
    modifies buf
    ensures buf[..12] == RiffHeader(n)
  {
    SetBytes(buf, 0, Ascii("RIFF"));
    SetBytes(buf, 4, U32LE(36 + n * BytesPerSample));
    SetBytes(buf, 8, Ascii("WAVE"));
  }

  /** The `fmt ` chunk writes at offsets 12 to 34. */
  method WriteFmtChunk(buf: array<byte>, sampleRate: int)
    requires HeaderSize <= buf.Length
    modifies buf
    ensures buf[..36] == old(buf[..12]) + FmtChunk(sampleRate)
  {
    var blockAlign := NumChannels * BytesPerSample;
    var byteRate := sampleRate * blockAlign;
    SetBytes(buf, 12, Ascii("fmt "));
    SetBytes(buf, 16, U32LE(16));
    SetBytes(buf, 20, U16LE(1));
    SetBytes(buf, 22, U16LE(NumChannels));
    ghost var head := buf[..24];
    SetBytes(buf, 24, U32LE(sampleRate));
    SetBytes(buf, 28, U32LE(byteRate));
    SetBytes(buf, 32, U16LE(blockAlign));
    SetBytes(buf, 34, U16LE(BytesPerSample * 8));
    assert buf[..36] == head + buf[24..36];
  }

  /** The `data` chunk header writes at offsets 36 and 40. */
  method WriteDataHeader(buf: array<byte>, n: nat)
    requires HeaderSize <= buf.Length
    modifies buf
    ensures buf[..HeaderSize] == old(buf[..36]) + DataHeader(n)
  {
    SetBytes(buf, 36, Ascii("data"));
    SetBytes(buf, 40, U32LE(n * BytesPerSample));
  }

  /** `samplesToWav(samples, sampleRate)`: allocate `44 + 2n` bytes, write
      the header, then each clipped, scaled sample at the offset that
      advances by two. */
  method SamplesToWav(samples: seq<real>, sampleRate: int) returns (blob: seq<byte>)
    ensures blob == WavFile(samples, sampleRate)
  {
    var n := |samples|;
    var buf := new byte[HeaderSize + n * BytesPerSample];
    WriteRiffHeader(buf, n);
    WriteFmtChunk(buf, sampleRate);
    WriteDataHeader(buf, n);
    var offset := HeaderSize;
    var i := 0;
    while i < n
      invariant 0 <= i <= n && offset == HeaderSize + 2 * i
      invariant buf[..offset] == Header(n, sampleRate) + SampleBytes(samples[..i])
    {
      var s := Clip(samples[i]);
      var q := Trunc(s * FullScale as real);
      assert q == Quantise(samples[i]);
      SetBytes(buf, offset, I16LE(q));
      SampleBytesStep(samples, i);
      offset := offset + 2;
      i := i + 1;
    }
    assert samples[..n] == samples;
    blob := buf[..];
  }
}

=== FILE: waveform.dfy ===
/** The waveform viewer (`SignalViewer`): zoom/pan state, playback position,
    and the per-pixel min/max envelope that `render` strokes. */
module Waveform {
  import opened Common
  import opened Viewport

  /** `canvas.width`, fixed by the constructor. */
  const CanvasWidth: nat := 800

  /** Lowest and highest sample of one pixel column. */
  datatype Bucket = Bucket(lo: real, hi: real)

  /** Smallest element, folded from the left as the render loop does. */
  function SeqMin(s: seq<real>): real
    requires |s| > 0
  {
    if |s| == 1 then s[0] else Min(SeqMin(s[..|s| - 1]), s[|s| - 1])
  }

  /** Largest element, folded from the left as the render loop does. */
  function SeqMax(s: seq<real>): real
    requires |s| > 0
  {
    if |s| == 1 then s[0] else Max(SeqMax(s[..|s| - 1]), s[|s| - 1])
  }

  /** The folds give a lower and an upper bound that are elements. */
  lemma {:induction false} SeqMinMaxBounds(s: seq<real>)
    requires |s| > 0
    ensures forall i :: 0 <= i < |s| ==> SeqMin(s) <= s[i] <= SeqMax(s)
    ensures exists i :: 0 <= i < |s| && SeqMin(s) == s[i]
    ensures exists i :: 0 <= i < |s| && SeqMax(s) == s[i]
  {
    if |s| > 1 {
      var init := s[..|s| - 1];
      var last := s[|s| - 1];
      SeqMinMaxBounds(init);
      assert SeqMin(s) == Min(SeqMin(init), last);
      assert SeqMax(s) == Max(SeqMax(init), last);
      forall i | 0 <= i < |s|
        ensures SeqMin(s) <= s[i] <= SeqMax(s)
      {
        if i < |s| - 1 {
          assert init[i] == s[i];
        }
      }
      var j :| 0 <= j < |init| && SeqMin(init) == init[j];
      var k :| 0 <= k < |init| && SeqMax(init) == init[k];
      assert init[j] == s[j] && init[k] == s[k];
      if SeqMin(s) != last {
        assert SeqMin(s) == s[j];
      }
      if SeqMax(s) != last {
        assert SeqMax(s) == s[k];
      }
    } else {
      assert SeqMin(s) == s[0] == SeqMax(s);
    }
  }

  /** `time[i] = i / sampleRate`, rebuilt from the samples when no time array is given. */
  function TimeAxis(n: nat, sampleRate: real): (t: seq<real>)
    requires sampleRate > 0.0
    ensures |t| == n
    ensures forall i :: 0 <= i < n ==> t[i] * sampleRate == i as real
    ensures forall i, j :: 0 <= i < j < n ==> t[i] < t[j]
  {
    var t := seq(n, i => i as real / sampleRate);
    assert forall i, j :: 0 <= i < j < n ==> t[i] < t[j] by {
      forall i, j | 0 <= i < j < n ensures t[i] < t[j] {
        assert t[i] * sampleRate < t[j] * sampleRate;
      }
    }
    t
  }

  /** `samplesPerPixel = max(1, floor(len / (w * zoom)))`. */
  function SamplesPerPixel(len: nat, zoom: real): (spp: nat)
    requires zoom >= 1.0
    ensures spp >= 1
    ensures spp > 1 ==> spp as real * (CanvasWidth as real * zoom) <= len as real
    ensures len as real < (spp + 1) as real * (CanvasWidth as real * zoom)
  {
    var d := CanvasWidth as real * zoom;
    var q := (len as real / d).Floor;
    FloorQuotient(len as real, d);
    if q >= 1 then q else
      assert (q + 1) as real * d <= 2.0 * d;
      1
  }

  /** `startSample = floor(offset * len)`: the sample under the left edge. */
  function StartSample(offset: real, len: nat): (s: nat)
    requires 0.0 <= offset <= 1.0
    ensures s <= len
    ensures offset < 1.0 && len > 0 ==> s < len
  {
    var x := offset * len as real;
    FractionBounds(offset, len as real);
    assert offset < 1.0 && len > 0 ==> x < len as real by {
      if offset < 1.0 && len > 0 {
        assert (1.0 - offset) * len as real > 0.0;
      }
    }
    var s := x.Floor;
    assert s as real <= x;
    assert 0 <= s <= len;
    s
  }

  /** The column of the playhead, `floor((currentSample - startSample) / spp)`;
      Dafny's division by a positive divisor already rounds down. */
  function CurrentPixel(currentTime: real, sampleRate: real, start: nat, spp: nat): int
    requires spp >= 1
  {
    ((currentTime * sampleRate).Floor - start) / spp
  }

  /** The first column whose first sample index is at or past the end: the
      render loop breaks there. */
  function Reach(len: nat, start: nat, spp: nat): (x: nat)
    requires spp >= 1
    ensures start + x * spp >= len
    ensures x > 0 ==> start + (x - 1) * spp < len
    decreases len - start
  {
    if start >= len then 0
    else
      var x' := Reach(len, start + spp, spp);
      assert (1 + x') * spp == spp + x' * spp;
      assert x' > 0 ==> x' * spp == spp + (x' - 1) * spp;
      1 + x'
  }

  /** Every column left of Reach starts inside the samples. */
  lemma ReachBelow(len: nat, start: nat, spp: nat, x: nat)
    requires spp >= 1 && x < Reach(len, start, spp)
    ensures start + x * spp < len
  {
    MulLeftMono(x, Reach(len, start, spp) - 1, spp);
  }

  /** Every column at or right of Reach starts at or past the end. */
  lemma ReachAbove(len: nat, start: nat, spp: nat, x: nat)
    requires spp >= 1 && x >= Reach(len, start, spp)
    ensures start + x * spp >= len
  {
    MulLeftMono(Reach(len, start, spp), x, spp);
  }

  /** First sample index of pixel column `x`. */
  function ColumnStart(start: nat, spp: nat, x: nat): nat
  {
    start + x * spp
  }

  /** The envelope of the column whose first sample is `a`: min and max of
      the samples `[a, min(a + spp, len))`. */
  function Column(samples: seq<real>, a: nat, spp: nat): (b: Bucket)
    requires spp >= 1 && a < |samples|
    ensures forall i :: a <= i < MinInt(a + spp, |samples|) ==> b.lo <= samples[i] <= b.hi
    ensures exists i :: a <= i < MinInt(a + spp, |samples|) && samples[i] == b.lo
    ensures exists i :: a <= i < MinInt(a + spp, |samples|) && samples[i] == b.hi
  {
    var e := MinInt(a + spp, |samples|);
    var bucket := samples[a..e];
    var lo := SeqMin(bucket);
    var hi := SeqMax(bucket);
    SeqMinMaxBounds(bucket);
    assert forall i :: a <= i < e ==> bucket[i - a] == samples[i];
    var j :| 0 <= j < |bucket| && lo == bucket[j];
    var k :| 0 <= k < |bucket| && hi == bucket[k];
    assert samples[a + j] == lo && samples[a + k] == hi;
    Bucket(lo, hi)
  }

  /** The columns one `drawSignal(color, startX, endX)` stroke visits:
      `startX <= x < endX`, `x < w`, stopping at the first column past the samples. */
  function Envelope(samples: seq<real>, start: nat, spp: nat, sx: nat, ex: int): seq<Bucket>
    requires spp >= 1
  {
    var n := MaxInt(0, StrokeEnd(|samples|, start, spp, ex) - sx);
    seq(n, k requires 0 <= k < n =>
      ReachBelow(|samples|, start, spp, sx + k);
      Column(samples, ColumnStart(start, spp, sx + k), spp))
  }

  /** Cutting a stroke at column `a` and drawing `[sx, a)` then `[a, e)` gives
      exactly the columns of one stroke over `[sx, e)`: the played and unplayed
      strokes together draw the same envelope as a single stroke would. */
  lemma EnvelopeSplit(samples: seq<real>, start: nat, spp: nat, sx: nat, a: nat, e: int)
    requires spp >= 1 && sx <= a <= e
    ensures Envelope(samples, start, spp, sx, a) + Envelope(samples, start, spp, a, e)
         == Envelope(samples, start, spp, sx, e)
  {
    var left := Envelope(samples, start, spp, sx, a);
    var right := Envelope(samples, start, spp, a, e);
    var whole := Envelope(samples, start, spp, sx, e);
    var r := MinInt(CanvasWidth, Reach(|samples|, start, spp));
    assert |left| == MaxInt(0, MinInt(a, r) - sx);
    assert |right| == MaxInt(0, MinInt(e, r) - a);
    assert |whole| == MaxInt(0, MinInt(e, r) - sx);
    assert |left + right| == |whole|;
    forall k | 0 <= k < |whole|
      ensures (left + right)[k] == whole[k]
    {
      if k < |left| {
        assert (left + right)[k] == left[k];
      } else {
        assert (left + right)[k] == right[k - |left|];
        assert |left| == a - sx;
      }
    }
  }

  /** The inner loop of `drawSignal`: min and max over one column. The source
      starts from +/-Infinity, so its first iteration yields the first sample. */
  method ColumnMinMax(samples: seq<real>, a: nat, spp: nat) returns (b: Bucket)
    requires spp >= 1 && a < |samples|
    ensures b == Column(samples, a, spp)
  {
    var lo, hi := samples[a], samples[a];
    var i := 1;
    assert samples[a..a + 1] == [samples[a]];
    while i < spp && a + i < |samples|
      invariant 1 <= i <= spp && a + i <= |samples|
      invariant lo == SeqMin(samples[a..a + i])
      invariant hi == SeqMax(samples[a..a + i])
    {
      FoldStep(samples, a, i);
      lo := Min(lo, samples[a + i]);
      hi := Max(hi, samples[a + i]);
      i := i + 1;
    }
    ColumnIs(samples, a, spp);
    b := Bucket(lo, hi);
  }

  lemma ColumnIs(samples: seq<real>, a: nat, spp: nat)
    requires spp >= 1 && a < |samples|
    ensures var e := MinInt(a + spp, |samples|);
      Column(samples, a, spp) == Bucket(SeqMin(samples[a..e]), SeqMax(samples[a..e]))
  {
  }

  /** One more sample folds into the running minimum and maximum. */
  lemma FoldStep(samples: seq<real>, a: nat, i: nat)
    requires 1 <= i && a + i < |samples|
    ensures SeqMin(samples[a..a + i + 1]) == Min(SeqMin(samples[a..a + i]), samples[a + i])
    ensures SeqMax(samples[a..a + i + 1]) == Max(SeqMax(samples[a..a + i]), samples[a + i])
  {
    assert samples[a..a + i + 1][..i] == samples[a..a + i];
  }

  /** Where a stroke over `[sx, ex)` stops: at `endX`, the canvas edge or Reach. */
  function StrokeEnd(len: nat, start: nat, spp: nat, ex: int): int
    requires spp >= 1
  {
    MinInt(ex, MinInt(CanvasWidth, Reach(len, start, spp)))
  }

  /** A stroke one column longer adds that column's bucket at the end. */
  lemma EnvelopeStep(samples: seq<real>, start: nat, spp: nat, sx: nat, x: nat)
    requires spp >= 1 && sx <= x < MinInt(CanvasWidth, Reach(|samples|, start, spp))
    ensures ColumnStart(start, spp, x) < |samples|
    ensures Envelope(samples, start, spp, sx, x + 1)
         == Envelope(samples, start, spp, sx, x) + [Column(samples, ColumnStart(start, spp, x), spp)]
  {
    ReachBelow(|samples|, start, spp, x);
    var e := Envelope(samples, start, spp, sx, x);
    var e' := Envelope(samples, start, spp, sx, x + 1);
    assert |e'| == |e| + 1;
    assert forall k :: 0 <= k < |e| ==> e'[k] == e[k];
  }

  /** Two strokes from `sx` that stop at the same column draw the same buckets. */
  lemma EnvelopeSameEnd(samples: seq<real>, start: nat, spp: nat, sx: nat, e1: int, e2: int)
    requires spp >= 1
    requires MaxInt(0, StrokeEnd(|samples|, start, spp, e1) - sx) == MaxInt(0, StrokeEnd(|samples|, start, spp, e2) - sx)
    ensures Envelope(samples, start, spp, sx, e1) == Envelope(samples, start, spp, sx, e2)
  {
  }

  /** `drawSignal`: walk the columns from `startX`, compute each one's min and
      max, and stop at `endX`, at the canvas edge or at the first column whose
      first index is past the samples. */
  method DrawSignal(samples: seq<real>, start: nat, spp: nat, sx: nat, ex: int) returns (cols: seq<Bucket>)
    requires spp >= 1
    ensures cols == Envelope(samples, start, spp, sx, ex)
  {
    var len := |samples|;
    ghost var r := MinInt(CanvasWidth, Reach(len, start, spp));
    cols := [];
    var x := sx;
    while x < ex && x < CanvasWidth
      invariant sx <= x && (x == sx || (x <= ex && x <= r))
      invariant cols == Envelope(samples, start, spp, sx, x)
      decreases CanvasWidth - x
    {
      var sampleIdx := ColumnStart(start, spp, x);
      if sampleIdx >= len {
        if x < Reach(len, start, spp) { ReachBelow(len, start, spp, x); }
        break;
      }
      if x >= Reach(len, start, spp) { ReachAbove(len, start, spp, x); }
      EnvelopeStep(samples, start, spp, sx, x);
      var b := ColumnMinMax(samples, sampleIdx, spp);
      cols := cols + [b];
      x := x + 1;
    }
    EnvelopeSameEnd(samples, start, spp, sx, x, ex);
  }

  /** What one `render` call draws: nothing for an empty signal, otherwise the
      played stroke left of the playhead and the unplayed stroke from it. */
  datatype Frame =
    | Blank
    | Drawn(samplesPerPixel: nat, startSample: nat, currentPixel: int,
            played: seq<Bucket>, unplayed: seq<Bucket>)

  class SignalViewer {
    var samples: seq<real>
    var time: seq<real>
    var sampleRate: real
    /** Source of the playable resource; None when the viewer has no audio. */
    var audio: Option<string>
    var isPlaying: bool
    var zoom: real
    var offset: real
    var currentTime: real

    ghost predicate Valid()
      reads this
    {
      sampleRate > 0.0 && zoom >= 1.0 && 0.0 <= offset <= 1.0
    }

    /** `audioSrc ? new Audio(audioSrc) : null`: an empty source is falsy. */
    static function AudioOf(src: Option<string>): (a: Option<string>)
      ensures a.Some? <==> src.Some? && src.value != ""
      ensures a.Some? ==> a == src
    {
      if src.Some? && src.value != "" then src else None
    }

    constructor (samples: seq<real>, sampleRate: real, audioSrc: Option<string>)
      requires sampleRate > 0.0
      ensures Valid()
      ensures this.samples == samples && this.sampleRate == sampleRate
      ensures time == TimeAxis(|samples|, sampleRate)
      ensures audio == AudioOf(audioSrc)
      ensures zoom == 1.0 && offset == 0.0 && currentTime == 0.0 && !isPlaying
    {
      this.samples := samples;
      this.sampleRate := sampleRate;
      time := TimeAxis(|samples|, sampleRate);
      audio := AudioOf(audioSrc);
      isPlaying := false;
      zoom := 1.0;
      offset := 0.0;
      currentTime := 0.0;
    }

    /** `_onAudioTimeUpdate`: copy the resource's reported position. */
    method OnAudioTimeUpdate(position: real)
      requires Valid() && audio.Some?
      modifies this`currentTime
      ensures Valid() && currentTime == position
    {
      currentTime := position;
    }

    method ClampOffset()
      requires Valid()
      modifies this`offset
      ensures Valid()
      ensures offset == Clamped(old(offset), zoom)
      ensures 0.0 <= offset <= MaxOffset(zoom)
      ensures 0.0 <= old(offset) <= MaxOffset(zoom) ==> offset == old(offset)
    {
      offset := Clamped(offset, zoom);
    }

    /** The pan slider's `input` handler: it stores the slider value unclamped. */
    method Pan(value: real)
      requires Valid() && 0.0 <= value <= 1.0
      modifies this`offset
      ensures Valid() && offset == value
    {
      offset := value;
    }

    method TogglePlayPause()
      requires Valid()
      modifies this`isPlaying
      ensures Valid()
      ensures isPlaying == if audio.None? then old(isPlaying) else !old(isPlaying)
    {
      if audio.None? { return; }
      isPlaying := !isPlaying;
    }

    /** `stop`: without audio it does nothing; otherwise it rewinds. The
        playable resource's own pause and rewind are outside the model. */
    method Stop()
      requires Valid()
      modifies this`currentTime, this`isPlaying
      ensures Valid()
      ensures audio.None? ==> currentTime == old(currentTime) && isPlaying == old(isPlaying)
      ensures audio.Some? ==> currentTime == 0.0 && !isPlaying
    {
      if audio.None? { return; }
      currentTime := 0.0;
      isPlaying := false;
    }

    method Reset()
      requires Valid()
      modifies this`currentTime, this`isPlaying, this`zoom, this`offset
      ensures Valid()
      ensures zoom == 1.0 && offset == 0.0
      ensures audio.None? ==> currentTime == old(currentTime) && isPlaying == old(isPlaying)
      ensures audio.Some? ==> currentTime == 0.0 && !isPlaying
    {
      Stop();
      zoom := 1.0;
      offset := 0.0;
    }

    method ZoomIn()
      requires Valid()
      modifies this`zoom, this`offset
      ensures Valid()
      ensures zoom == ZoomedInCapped(old(zoom)) && 1.0 <= zoom <= WaveformZoomCap
      ensures offset == Clamped(old(offset), zoom) && 0.0 <= offset <= MaxOffset(zoom)
    {
      zoom := ZoomedInCapped(zoom);
      ClampOffset();
    }

    method ZoomOut()
      requires Valid()
      modifies this`zoom, this`offset
      ensures Valid()
      ensures zoom == ZoomedOut(old(zoom)) && 1.0 <= zoom <= old(zoom)
      ensures offset == Clamped(old(offset), zoom) && 0.0 <= offset <= MaxOffset(zoom)
    {
      zoom := ZoomedOut(zoom);
      ClampOffset();
    }

    /** `updateData(samples, time, audioSrc)`: new samples, a time axis (given,
        or rebuilt from the unchanged sample rate), playhead back to 0, a new
        resource when a source is given; zoom and offset are kept. */
    method UpdateData(newSamples: seq<real>, newTime: Option<seq<real>>, audioSrc: Option<string>)
      requires Valid()
      modifies this`samples, this`time, this`currentTime, this`audio
      ensures Valid()
      ensures samples == newSamples && currentTime == 0.0
      ensures newTime.Some? ==> time == newTime.value
      ensures newTime.None? ==> |time| == |newSamples| && forall i :: 0 <= i < |time| ==> time[i] * sampleRate == i as real
      ensures audio == if AudioOf(audioSrc).Some? then audioSrc else old(audio)
    {
      samples := newSamples;
      time := if newTime.Some? then newTime.value else TimeAxis(|newSamples|, sampleRate);
      currentTime := 0.0;
      if AudioOf(audioSrc).Some? {
        audio := audioSrc;
      }
    }

    /** `render`: nothing for an empty signal; otherwise the layout numbers
        and the two strokes, split at the playhead column. Columns left of the
        canvas (a playhead before the window) are not drawn. */
    method Render() returns (f: Frame)
      requires Valid()
      ensures f.Blank? <==> |samples| == 0
      ensures f.Drawn? ==>
        && f.samplesPerPixel == SamplesPerPixel(|samples|, zoom) && f.samplesPerPixel >= 1
        && f.startSample == StartSample(offset, |samples|)
        && f.currentPixel == CurrentPixel(currentTime, sampleRate, f.startSample, f.samplesPerPixel)
        && (f.currentPixel <= 0 ==> f.played == [])
        && (f.currentPixel >= CanvasWidth ==> f.unplayed == [])
        && |f.played| <= MaxInt(0, f.currentPixel)
        && f.played + f.unplayed == Envelope(samples, f.startSample, f.samplesPerPixel, 0, CanvasWidth)
      ensures f.Drawn? && 0 < f.currentPixel ==>
        f.played == Envelope(samples, f.startSample, f.samplesPerPixel, 0, f.currentPixel)
      ensures f.Drawn? && f.currentPixel < CanvasWidth ==>
        f.unplayed == Envelope(samples, f.startSample, f.samplesPerPixel, MaxInt(f.currentPixel, 0), CanvasWidth)
    {
      if |samples| == 0 {
        return Blank;
      }
      var spp := SamplesPerPixel(|samples|, zoom);
      var start := StartSample(offset, |samples|);
      var cp := CurrentPixel(currentTime, sampleRate, start, spp);
      var played: seq<Bucket> := [];
      if cp > 0 {
        played := DrawSignal(samples, start, spp, 0, cp);
      }
      var unplayed: seq<Bucket> := [];
      if cp < CanvasWidth {
        unplayed := DrawSignal(samples, start, spp, MaxInt(cp, 0), CanvasWidth);
      }
      if 0 < cp < CanvasWidth {
        EnvelopeSplit(samples, start, spp, 0, cp, CanvasWidth);
      } else if cp >= CanvasWidth {
        assert Envelope(samples, start, spp, 0, cp) == Envelope(samples, start, spp, 0, CanvasWidth);
      }
      f := Drawn(spp, start, cp, played, unplayed);
    }
  }

  /** Stopping twice leaves the viewer as stopping once did: `time` and
      `playing` are the playhead and play flag after the first call. */
  method StopTwice(v: SignalViewer) returns (time: real, playing: bool)
    requires v.Valid()
    modifies v`currentTime, v`isPlaying
    ensures v.Valid()
    ensures v.currentTime == time && v.isPlaying == playing
    ensures v.audio.Some? ==> time == 0.0 && !playing
    ensures v.audio.None? ==> time == old(v.currentTime) && playing == old(v.isPlaying)
  {
    v.Stop();
    time, playing := v.currentTime, v.isPlaying;
    v.Stop();
  }
}
